=== FILE: README.md ===
# FreshCart storefront core, modelled in Dafny

FreshCart is a React storefront over a remote commerce REST API. This project
models its client-side core:

- the **cart store** (`CartContext`). It mirrors the server's cart in five
  fields: lines, count, total, cart id and owner. Its six operations each
  check the stored token, send one request, and then either copy some
  fields from the reply, empty them, or throw.
- the **session** (`UserContext`) and the **route guard** (`ProtectedRoute`).
- the pages built on them:
  - the cart page, with its remove/update/clear handlers, busy markers and
    render rules;
  - checkout, with its shipping schema and payment branching;
  - login and registration, with their schemas and error reporting;
  - the product grid, with the liked set, persisted to storage, and the
    single-flight add button;
  - the wishlist, which filters the catalog by the liked set;
  - the product page, with the quantity stepper, related products and add
    button;
  - the navigation bar, with its links and the logout handler.

Everything is pure functions over immutable datatypes:

- A cart operation is a function from:
  - the store's state;
  - the stored token (`Option<string>`);
  - the server's reply, which is an input.

  It returns a `Step`: the new state, the request it sent (if any), and
  whether the call returned a reply body or threw a message.
- A page handler composes these steps. It returns what the page is left
  with: the markers, toasts, navigation and loading flags.
- Decoding a token (`jwtDecode`) is a parameter of type
  `string -> Decoded`.
- What is in browser storage is a datatype that the caller passes in.

Each cart operation's contract is one predicate, `CartStore.Obeys`. It is
defined independently of the operation bodies, from a per-operation table:

- `Written`: which mirrored fields a success overwrites;
- `Target`: the value each written field gets, copied from the reply or
  emptied;
- `Accepts`: which reply field the operation tests;
- `Rejection`: the fixed message it throws otherwise;
- `AfterFailure`: what a failure resets.

Files, one module each:

| file | module | source component |
|---|---|---|
| common.dfy | Common | shared vocabulary: optional values, products, toasts, navigation, `filter`/`slice` |
| cart_store.dfy | CartStore | src/context/CartContext.jsx |
| cart_page.dfy | CartPage | src/components/Cart/Cart.jsx |
| checkout.dfy | CheckOut | src/components/CheckOut/CheckOut.jsx |
| form_rules.dfy | FormRules | the Yup patterns shared by CheckOut, Register and Login |
| session.dfy | Session | src/context/UserContext.jsx, src/components/protectedRoute/protectedRoute.jsx |
| login.dfy | Login | src/components/Login/Login.jsx |
| register.dfy | Register | src/components/Register/Register.jsx |
| liked_products.dfy | LikedProducts | the `likedProducts` Set and its storage entry |
| add_button.dfy | AddButton | the single-flight add-to-cart handler shared by two pages |
| recent_product.dfy | RecentProduct | src/components/RecentProduct/RecentProduct.jsx |
| wishlist.dfy | Wishlist | src/components/Wishlist/Wishlist.jsx |
| product_details.dfy | ProductDetails | src/components/ProductDetails/ProductDetails.jsx |
| navbar.dfy | Navbar | src/components/Navbar/Navbar.jsx |
| storefront.dfy | Storefront | properties that span components |

Behaviours of the code that the model keeps exactly as written:

- Only `getCartItems` and `removeFromCart` copy all five mirrored fields
  from a successful reply:
  - `addToCart` leaves the total;
  - `updateCartQuantity` leaves the owner;
  - `Payment` empties lines, count and total but keeps the cart id;
  - `clearCart` empties lines, count and total and nulls the id.

  `Storefront.WholeCartReplacedOnlyByFetchAndRemove` states this.
- The store tests the stored token for truthiness, so an empty string
  fails. The guard tests `!== null`, so an empty string passes
  (`Storefront.EmptyTokenPassesGuardButNotStore`).
- `addToCart` takes only the product id, so the quantity the product page
  passes is dropped (`ProductDetails.QuantityIsIgnored`).
- Each operation tests one reply field against "success". Five test
  `status`; `clearCart` tests `message`. When the test fails, `getCartItems`
  returns the reply without throwing and without touching the state. The
  other five throw a fixed message.
- A successful order keeps the cart id, so the same order can be submitted
  again (`CheckOut.CashOrderCanBeRepeated`).
- The phone pattern `/^(\+201|01|00201)[0-2,5]{1}[0-9]{8}/`:
  - is anchored only at the start, so it decides a number by a head of 13,
    11 or 14 characters;
  - has a class that also admits a comma.

## Model

| member | source | states |
|---|---|---|
| CartStore.Find | src/context/CartContext.jsx:145 | finds a line exactly when some line has that product id, and the line found is the first such line, which decides the `_id` an update PUTs to |
| CartStore.IsItemInCart | src/context/CartContext.jsx:264-268 | true exactly when some line's product id equals the argument |
| CartStore.GetCartItems | src/context/CartContext.jsx:18-55 | obeys the reference table. A falsy token throws "No authentication token found" before any request. A thrown request resets lines, count and total but keeps the id and owner. A "success" status copies all five fields from the reply. Any other status returns without change. Loading is always cleared |
| CartStore.AddToCart | src/context/CartContext.jsx:57-94 | obeys the reference table. Posts only the product id. A success copies lines, count, cart id and owner but not the total. A non-success status throws "Failed to add item to cart" and leaves the state alone |
| CartStore.RemoveFromCart | src/context/CartContext.jsx:96-134 | obeys the reference table. A success copies all five fields. Otherwise it throws, and the mirrored fields are unchanged |
| CartStore.UpdateCartQuantity | src/context/CartContext.jsx:136-177 | obeys the reference table. A product id with no line throws "Item not found in cart" without a request. Otherwise it PUTs to the line's `_id` with the count. A success copies everything but the owner |
| CartStore.Payment | src/context/CartContext.jsx:179-225 | obeys the reference table. The session endpoint is used for exactly "online", the cash endpoint otherwise, both for the current cart id. A success empties lines, count and total and keeps the cart id. Otherwise it throws "Payment processing failed" |
| CartStore.ClearCart | src/context/CartContext.jsx:228-262 | obeys the reference table. It tests the reply's `message`, not its `status`. A success empties lines, count and total and nulls the cart id. Otherwise it throws "Failed to clear cart" |
| CartStore.Run | src/context/CartContext.jsx:270-287 | every exported operation keeps the same reference contract |
| CartPage.HandleRemoveItem | src/components/Cart/Cart.jsx:25-39 | the deleting marker is cleared whatever happens. The cart is refetched exactly when the removal returned, and the page then shows the refetched cart, with the success toast, or only "Failed to remove item" when the refetch threw. A failed removal shows only the error toast |
| CartPage.HandleUpdateQuantity | src/components/Cart/Cart.jsx:41-55 | a count below 1 changes nothing and sends nothing. Otherwise the store's result is adopted, the updating marker is cleared, and exactly one of the success and error toasts is raised, according to the store's outcome |
| CartPage.HandleClearCart | src/components/Cart/Cart.jsx:57-70 | refetches exactly when the clear returned, and the page then shows the refetched cart: "Cart cleared successfully", followed by "Failed to clear cart" exactly when the refetch threw. A thrown clear sends only the store's request and shows only the error toast |
| CartPage.ItemsLabel | src/components/Cart/Cart.jsx:296-298 | the summary's item label is non-negative, and zero exactly when there are no lines |
| CartPage.Render | src/components/Cart/Cart.jsx:72-92 | spinner exactly while loading. Empty view exactly for an empty, loaded cart. Otherwise the lines, their number, and the server total |
| CartPage.EnabledDecrementStaysPositive | src/components/Cart/Cart.jsx:125-127 | an enabled decrement button never sends a count below 1 |
| CartPage.ButtonsFrozenWhileUpdating | src/components/Cart/Cart.jsx:126-140 | while a line is updating its disabled increment also disables the decrement. Otherwise only a count of 1 or below disables the decrement |
| CartPage.EnabledIncrementSendsNextCount | src/components/Cart/Cart.jsx:139-140 | an enabled increment on a cart line PUTs one more unit to that line's `_id`, and afterwards no increment is disabled |
| CartPage.MarkersResetAfterEveryAttempt | src/components/Cart/Cart.jsx:36-38 | both busy markers are null after every attempt that passed the count check |
| CartPage.ItemsCountLinesNotUnits | src/components/Cart/Cart.jsx:298 | a single line of two units is labelled 1 item |
| FormRules.MatchPhone | src/components/CheckOut/CheckOut.jsx:26-28 | the phone pattern matches exactly when the string starts with one of the three prefixes, then an operator digit (0, 1, 2, 5 or a comma), then eight digits |
| FormRules.PhoneIgnoresSuffix | src/components/CheckOut/CheckOut.jsx:28 | the unanchored end makes any extension of a valid number valid |
| FormRules.PhoneDecidedByHead | src/components/Register/Register.jsx:60-62 | a valid number's head of 13, 11 or 14 characters (by prefix) is itself valid, so the head alone decides |
| FormRules.PhoneAcceptsCommaAndTrailingText | src/components/Register/Register.jsx:62 | "01,12345678" (a comma as the operator digit) and "01012345678 call after 5pm" (trailing text) are accepted. "0131234567890" (operator digit 3) is refused |
| FormRules.Scan | src/components/Register/Register.jsx:71-72 | one pass over the password tells whether a lowercase letter, an uppercase letter, a digit and a special character each occur, and whether every character is allowed |
| FormRules.PasswordByScan | src/components/Login/Login.jsx:60-66 | the lookahead pattern holds exactly when the single pass finds all four classes, only allowed characters, and length 8 or more |
| FormRules.GroupsIffSeparated | src/components/Register/Register.jsx:59 | the name pattern's repeated `[ '-][a-zA-Z]+` groups hold exactly when the string is letters with single separators between letter runs |
| FormRules.NamePatternIffShape | src/components/Register/Register.jsx:55-59 | the name pattern holds exactly when the name starts with three letters and is letters separated by single spaces, apostrophes or hyphens, ending in a letter |
| FormRules.SeparatedAfterLetters | src/components/Register/Register.jsx:59 | after a run of letters, the rest matches the groups exactly when it is separated letters |
| FormRules.SeparatedAfterSep | src/components/Register/Register.jsx:59 | a separator followed by a separated-letters string is one more group |
| CheckOut.HandleCheckOut | src/components/CheckOut/CheckOut.jsx:36-72 | a falsy cart id is reported first, then a missing method, and neither calls the store. Otherwise the store's result is adopted. It navigates exactly when the order returned, with a session URL for online payment. Online payment goes to the session's `url`, or to "undefined" when the session has none, and cash to "/AllOrders". Every order that navigates shows "Order processed successfully". A reply with no session at all shows the TypeError instead of navigating. A thrown message is toasted. Loading is cleared |
| CheckOut.OrderFailedIsUnreachable | src/components/CheckOut/CheckOut.jsx:63-65 | Payment returns only on a "success" status, so a refused order shows "Payment processing failed" and never "Order processing failed" |
| CheckOut.CashOrderCanBeRepeated | src/components/CheckOut/CheckOut.jsx:36-62 | after a successful cash order, submitting again passes both checks and sends the same order request |
| CheckOut.SubmitStartsDisabled | src/components/CheckOut/CheckOut.jsx:221 | the untouched form cannot be submitted |
| CheckOut.DetailsLengthBounds | src/components/CheckOut/CheckOut.jsx:22-25 | details are valid exactly when their length is between 10 and 200, both inclusive |
| CheckOut.CityExamples | src/components/CheckOut/CheckOut.jsx:29-32 | "New Cairo" and "Giza" pass. "Al-Arish" (hyphen), "Giza2" (digit) and "Eg" (too short) fail |
| Session.Rehydrate | src/context/UserContext.jsx:12-22 | with a stored token (even "") the login becomes that token and the user id the decoded `id`. An undecodable token leaves a login without an id, and the effect throws. No token leaves both null |
| Session.Guard | src/components/protectedRoute/protectedRoute.jsx:4-14 | renders the children exactly when a token is stored; otherwise redirects to "/Login" |
| Session.GuardChecksPresenceOnly | src/components/protectedRoute/protectedRoute.jsx:6 | the empty token opens guarded routes |
| Session.SignIn | src/components/Login/Login.jsx:30-31 | stores and publishes the token without touching the user id |
| Login.ResponseErrorText | src/components/Login/Login.jsx:41 | the server's message when it is non-empty, otherwise "Invalid credentials" |
| Login.Greeting | src/components/Login/Login.jsx:32 | the success toast reads "Welcome " and the user's name, or "Welcome undefined" when the user object has no name |
| Login.HandleLogin | src/components/Login/Login.jsx:19-53 | only a "success" answer changes the stored token or session. After "success", it navigates home and greets the user exactly when the answer has a `user` object; without one the token stays stored, the unexpected-error text is shown, and the page stays. An answer whose message is not "success" only clears loading: the error text, session and page stay as they were. Each failure kind maps to its own text. Loading is always cleared |
| Login.OnlySuccessSignsIn | src/components/Login/Login.jsx:29-38 | any other reply leaves the session untouched and stays on the page |
| Login.PasswordRuleShared | src/components/Login/Login.jsx:60-66 | the login password rule holds exactly when the registration rule's single pass finds all four classes, only allowed characters, and 8 or more characters |
| Login.ForgotPasswordGate | src/components/Login/Login.jsx:220-228 | the forgot-password link is blocked exactly for the emails the schema's `required` rejects |
| Login.BlockedEmailBlocksSubmit | src/components/Login/Login.jsx:179 | an email that blocks the forgot-password link also disables submit. An enabled submit means an email, a password of 8 or more characters, an edited form and no login in flight |
| Register.HandleRegisterAsWritten | src/components/Register/Register.jsx:18-53 | rejects exactly for a no-response error without `data`, leaving `isLoading` set. Every other run clears it |
| Register.NoResponseLeavesLoading | src/components/Register/Register.jsx:44-46 | an unanswered request leaves the page loading, with the previous error text |
| Register.HandleRegister | src/components/Register/Register.jsx:18-53 | always settles with `isLoading` cleared. Signs in and goes home exactly for "success". Shows each failure's text, and the no-response text when the request has no `data`. Agrees with the code on every other reply |
| Register.RePasswordMirrorsPassword | src/components/Register/Register.jsx:76-78 | the confirmation is valid exactly when it equals a non-empty password |
| Register.ValidFormShapes | src/components/Register/Register.jsx:55-79 | a valid form's confirmation meets the password rule itself, and its name is three letters followed by letters with single separators between them |
| LikedProducts.Dedup | src/components/RecentProduct/RecentProduct.jsx:23 | `new Set(list)` has no duplicates and the same members |
| LikedProducts.DedupKeepsFirstOrder | src/components/RecentProduct/RecentProduct.jsx:23 | every prefix of the stored list dedups to a prefix of the set, so each id sits at its first occurrence and the order is kept |
| LikedProducts.DedupOfDistinct | src/components/RecentProduct/RecentProduct.jsx:23 | a duplicate-free list is kept as it is, in order |
| LikedProducts.Load | src/components/RecentProduct/RecentProduct.jsx:20-28 | a stored list yields its members without duplicates. Nothing stored, or unparsable text, yields the empty set |
| LikedProducts.LoadPersist | src/components/RecentProduct/RecentProduct.jsx:31-37 | writing the set and reading it back gives the same set in the same order |
| LikedProducts.Delete | src/components/Wishlist/Wishlist.jsx:53 | removes exactly that id and keeps the rest duplicate-free |
| LikedProducts.DeleteIsFilter | src/components/Wishlist/Wishlist.jsx:53 | deleting an id equals filtering that id out, so every other id keeps its order |
| LikedProducts.Insert | src/components/RecentProduct/RecentProduct.jsx:115 | adds exactly that id and keeps the set duplicate-free. An absent id is appended at the end; a present one leaves the list unchanged |
| LikedProducts.Toggle | src/components/RecentProduct/RecentProduct.jsx:110-118 | flips that id's membership and leaves every other id as it was |
| LikedProducts.ToggleTwice | src/components/RecentProduct/RecentProduct.jsx:109-119 | toggling twice restores membership. An unliked id restores the exact list. A liked id moves to the end of the insertion order |
| LikedProducts.DeleteLast | src/components/RecentProduct/RecentProduct.jsx:113-115 | adding a new id and deleting it restores the list |
| AddButton.SingleFlight | src/components/RecentProduct/RecentProduct.jsx:90-106 | a press while busy does nothing. Otherwise the store's add is adopted and the flag lowered. The success toast shows exactly when the add returned; a thrown message is toasted, or the fallback when empty |
| RecentProduct.Mount | src/components/RecentProduct/RecentProduct.jsx:20-37 | the grid starts with the stored ids, duplicate-free, and writes them back |
| RecentProduct.ToggleLike | src/components/RecentProduct/RecentProduct.jsx:109-119 | the heart flips exactly the product's `id` and persists the new set |
| RecentProduct.AddProductToCart | src/components/RecentProduct/RecentProduct.jsx:90-106 | a press while an add is in flight changes nothing: no request, no toast, the grid and cart as they were. Otherwise it sends the store's add for the product's `id` and adopts the store's cart. It lowers the flag and leaves the liked set and its storage entry alone. It shows the success toast exactly when the add returned, otherwise the error message or "Error adding product to the cart" |
| Wishlist.Mount | src/components/Wishlist/Wishlist.jsx:22-30 | the page reads the same stored set and writes nothing |
| Wishlist.LikedDetails | src/components/Wishlist/Wishlist.jsx:45-47 | exactly the catalog products whose `_id` is liked |
| Wishlist.LikedDetailsKeepsOrder | src/components/Wishlist/Wishlist.jsx:45-47 | the liked products keep catalog order |
| Wishlist.RemoveFromWishlist | src/components/Wishlist/Wishlist.jsx:50-58 | removes exactly that id, keeps the set duplicate-free, and persists it |
| Wishlist.RemoveTwice | src/components/Wishlist/Wishlist.jsx:50-58 | removing twice is removing once |
| Wishlist.Render | src/components/Wishlist/Wishlist.jsx:78-131 | loading first, then the error text or its fallback. The empty view appears exactly when no catalog `_id` is liked. Otherwise the non-empty liked products |
| Wishlist.HandleAddToCart | src/components/Wishlist/Wishlist.jsx:61-75 | the adding marker is cleared after every attempt. The success toast shows exactly when the store's add returned, and otherwise the toast is always "Error adding product to the cart" |
| ProductDetails.Step | src/components/ProductDetails/ProductDetails.jsx:259-267 | plus adds one. Minus never goes below 1 and decreases anything above 1 by one |
| ProductDetails.Quantity | src/components/ProductDetails/ProductDetails.jsx:33 | from a positive start the quantity stays at least 1 and grows by at most one per click |
| ProductDetails.QuantityAlwaysPositive | src/components/ProductDetails/ProductDetails.jsx:259 | from the initial 1, no click sequence shows less than 1 |
| ProductDetails.Related | src/components/ProductDetails/ProductDetails.jsx:78-80 | the first eight products that do not have the route's id, in fetched order: a prefix of the filtered list, of length eight or the whole filtered list when shorter |
| ProductDetails.RelatedIsPrefix | src/components/ProductDetails/ProductDetails.jsx:78-80 | a short related list stays a prefix when the category has more products: the order is the catalog's |
| ProductDetails.LoadRelated | src/components/ProductDetails/ProductDetails.jsx:73-89 | a failure empties the list and sets the error text. A success clears the error |
| ProductDetails.DetailsError | src/components/ProductDetails/ProductDetails.jsx:64 | the server's message when non-empty, otherwise "Failed to fetch product details" |
| ProductDetails.LoadDetails | src/components/ProductDetails/ProductDetails.jsx:54-89 | a failed product fetch sets the error to the server message or the fixed text, toasts the same text, and keeps the earlier product and related list. A fetched product clears the error and loads the related list. A failed related fetch raises exactly the toast "Failed to load related products", and a successful one raises none. Loading is cleared |
| ProductDetails.ErrorShownIffDetailsFailed | src/components/ProductDetails/ProductDetails.jsx:63-66 | the page has an error exactly when the product fetch failed. The error is then never blank and is toasted as well |
| ProductDetails.HandleAddToCart | src/components/ProductDetails/ProductDetails.jsx:92-110 | a press while an add is in flight changes nothing: no request, no toast, same cart. Otherwise the store's cart is adopted and the flag lowered. The request carries the product's `id` only. The success toast shows exactly when the add returned, otherwise the error message or "Error adding product to cart" |
| ProductDetails.QuantityIsIgnored | src/components/ProductDetails/ProductDetails.jsx:98 | the chosen quantity changes nothing that is sent or stored |
| Navbar.ShownLinks | src/components/Navbar/Navbar.jsx:46-72 | the cart link shows exactly for a non-null login. The badge needs the link and a positive count. The login/register links show exactly when the cart link does not |
| Navbar.AuthPageIsExact | src/components/Navbar/Navbar.jsx:14-16 | only "/Login" and "/Register" count, compared exactly: "/login", "/Login/" and "/Register/step" do not |
| Navbar.RedirectsLandOnAuthPages | src/components/Navbar/Navbar.jsx:78 | the guard's redirect and the intended logout both land on an authentication page, where the menu button is hidden |
| Navbar.LogoutAsWritten | src/components/Navbar/Navbar.jsx:24-29 | the token and login are cleared and the user id is kept. Then the handler throws, keeping the cart and staying on the page |
| Navbar.LogoutAsWrittenKeepsCount | src/components/Navbar/Navbar.jsx:27 | a count of 3 survives logout, and the login page is not reached |
| Navbar.LogoutIntended | src/components/Navbar/Navbar.jsx:24-29 | the token and login are cleared, the count is zeroed, and it navigates to "/Login". The user id is kept |
| Navbar.LogoutHidesCart | src/components/Navbar/Navbar.jsx:18-22 | after logout the cart link and badge are hidden, the auth links shown, and no refetch is triggered |
| Storefront.NoTokenFailsFast | src/context/CartContext.jsx:21-24 | without a truthy token every operation throws the same message before any request. A fetch also empties the lines |
| Storefront.EmptyTokenPassesGuardButNotStore | src/components/protectedRoute/protectedRoute.jsx:6 | "" opens guarded routes while the store refuses it |
| Storefront.SignInOpensGuard | src/components/Login/Login.jsx:30-31 | after sign-in the guard opens, and the store sends the new token. The user id changes only on the next mount |
| Storefront.LogoutClosesEverything | src/components/Navbar/Navbar.jsx:24-29 | after the intended logout the guard redirects and no operation sends a request |
| Storefront.LikedOnGridShownOnWishlist | src/components/Wishlist/Wishlist.jsx:45-47 | a product liked on the grid shows on the wishlist when its two ids agree. It does not show when its `id` is no product's `_id`, though the id is stored |
| Storefront.WholeCartReplacedOnlyByFetchAndRemove | src/context/CartContext.jsx:39-43 | only fetching and removing write all five mirrored fields |
| Storefront.UpdateQuantityScenario | src/context/CartContext.jsx:145-165 | updating p1 from 2 to 3 PUTs to its `_id` and adopts the reply's total of 150 |
| Storefront.ClearAndPayEmptyTheCart | src/context/CartContext.jsx:212-216 | a successful clear or order leaves no lines and a zero total. Only clearing drops the cart id |
| Common.Filter | src/components/Wishlist/Wishlist.jsx:45-47 | `filter` keeps exactly the elements that pass |
| Common.FilterAppend | src/components/ProductDetails/ProductDetails.jsx:78-79 | filtering distributes over concatenation, so it keeps order |
| Common.Take | src/components/ProductDetails/ProductDetails.jsx:80 | `slice(0, n)` is the first n elements, or all when fewer |

## Left out

- HTTP, axios, localStorage, JSON and `jwtDecode`. The server's reply, the
  stored token, the stored liked list and the decoder are inputs. A reply
  body that lacks `data` or `products` (so that a property read throws) is
  not modelled: every `Body` has all its fields.
- Asynchrony. Each handler runs to completion. Races between concurrent
  handlers are not modelled, and neither are React's batching of state
  updates or its stale closures.
- Email validation. Yup's `.email()` rule is the library's own, so
  `Register.FormValid` leaves the email out.
- Formik's `isValid`/`dirty` timing. `CheckOut.SubmitEnabled` approximates
  `dirty` as "differs from the initial values" and `isValid` as the schema
  holding now.
- Display formatting (`Intl.NumberFormat`), images, Helmet, layout, the
  menu toggle, `window.scrollTo`, and `handleBuyNow`'s navigation.
- Prices and counts are unbounded integers. The server supplies them, and
  the client does no arithmetic on them.
- App.jsx's route table. The guard is modelled as a function of the stored
  token.
- A stored `likedProducts` value that parses to something other than an
  array. `new Set` on a string or object is not modelled: a stored entry is
  a list, absent, or unparsable.
- UTF-16 code units. Strings are sequences of Unicode scalar values, so
  `min`/`max` lengths count those.
- The grid's `aria-label` tests `_id` while its icon tests `id`. The model
  follows the icon and the click handler, which use `id`.
- The loading toast that `toast.loading` raises and later replaces is not
  modelled. Only the final toast is.
- The register page's success toast text and console logging.
- The text of the TypeError that a reply with no `session` raises is the
  V8 engine's wording. Other engines word it differently.
- Login.HandleLogin: when a "success" answer has no `token`, `undefined` is
  stored. This is not modelled, because `Answered` always carries a token.
- Register.HandleRegister: the corrected handler reports a request without
  `data` with the login page's no-response text. The code does not say what
  was meant.

## Findings

| source | as written | input that shows it | evidently intended | confidence | as-written member | corrected member |
|---|---|---|---|---|---|---|
| src/components/Navbar/Navbar.jsx:24-29 | `handleLogout` calls `setCartCount(0)`, but the cart context's value (src/context/CartContext.jsx:270-287) does not export `setCartCount`. The call throws a TypeError after the token is removed and the login is cleared, so the count is not reset and `navigate('/Login')` never runs | a logged-in user with a cart count of 3 clicks Logout | zero the count and go to the login page | not executed | Navbar.LogoutAsWritten (Navbar.LogoutAsWrittenKeepsCount) | Navbar.LogoutIntended (Navbar.LogoutHidesCart, Storefront.LogoutClosesEverything) |
| src/components/Register/Register.jsx:44-46 | on a request that got no response, the catch block reads `error.request.data.status`. A browser XMLHttpRequest has no `data` property, so the read throws inside the catch block: the handler rejects and `setIsLoading(false)` is never reached | submitting the form while the server is unreachable | report the missing response and clear `isLoading` | not executed | Register.HandleRegisterAsWritten (Register.NoResponseLeavesLoading) | Register.HandleRegister |

=== FILE: add_button.dfy ===
/** The add-to-cart buttons of the product page and the product grid share
    one shape: ignore the press while an earlier add is in flight, raise the
    flag, ask the cart store to add the product, toast the result, and lower
    the flag whatever happened. Only the toast texts differ. */
module AddButton {
  import opened Common
  import opened CartStore

  /** What one press leaves behind: the store's state, the request sent if
      any, the in-flight flag, and the toast raised if any. */
  datatype Press = Press(cart: Cart, sent: Option<Request>, busy: bool, toast: Option<Toast>)

  /** A press, given the flag's value when it happens. An error whose
      message is empty is toasted with the fallback text. */
  function SingleFlight(busy: bool, c: Cart, stored: Option<string>, productId: string, reply: Reply,
                        successText: string, fallback: string): (p: Press)
    ensures busy ==> p == Press(c, None, true, None)
    ensures !busy ==> !p.busy
    ensures !busy ==>
              var a := AddToCart(c, stored, productId, reply);
              p.cart == a.cart && p.sent == a.sent
              && (a.outcome.Returned? <==> p.toast == Some(ToastSuccess(successText)))
              && (a.outcome.Threw? ==> p.toast == Some(ToastError(OrElse(Some(a.outcome.message), fallback))))
  {
    if busy then Press(c, None, true, None)
    else
      var a := AddToCart(c, stored, productId, reply);
      match a.outcome
      case Threw(e) => Press(a.cart, a.sent, false, Some(ToastError(OrElse(Some(e), fallback))))
      case Returned(b) =>
        if b.status == Some("success") then Press(a.cart, a.sent, false, Some(ToastSuccess(successText)))
        else Press(a.cart, a.sent, false, Some(ToastError("Failed to add product to cart")))
  }
}

=== FILE: cart_page.dfy ===
/** The cart page: its three handlers composed from the cart store's
    operations, the markers that grey out a line while it is being removed or
    updated, and the rules that decide what the page shows. */
module CartPage {
  import opened Common
  import opened CartStore

  /** `isDeleting` / `isUpdating`: the product id whose line is busy. */
  datatype Marks = Marks(isDeleting: Option<string>, isUpdating: Option<string>)

  /** What one handler run leaves behind: the store's state, the markers, the
      requests sent in order, and the toasts raised in order. */
  datatype PageStep = PageStep(cart: Cart, marks: Marks, sent: seq<Request>, toasts: seq<Toast>)

  /** What the page renders. */
  datatype View = Spinner | EmptyCart | Listing(lines: seq<CartLine>, itemsLabel: int, total: int)

  const RemovedText := "Item removed from cart"
  const RemoveErrorText := "Failed to remove item"
  const UpdatedText := "Quantity updated"
  const UpdateErrorText := "Failed to update quantity"
  const ClearedText := "Cart cleared successfully"
  const ClearErrorText := "Failed to clear cart"

  function SentBy(s: Step): seq<Request> {
    if s.sent.Some? then [s.sent.value] else []
  }

  /** `handleRemoveItem`: removes the line and, only when the store returned
      a "success" reply, refetches the cart and shows what the refetch left;
      a failed refetch turns the success toast into the error toast. The
      deleting marker is cleared whatever happened. */
  function HandleRemoveItem(c: Cart, m: Marks, stored: Option<string>, productId: string,
                            removeReply: Reply, refetchReply: Reply): (p: PageStep)
    ensures p.marks == m.(isDeleting := None)
    ensures var r := RemoveFromCart(c, stored, productId, removeReply);
            r.outcome.Returned? <==> HasToken(stored) && p.sent == SentBy(r) + [GetCart(stored.value)]
    ensures var r := RemoveFromCart(c, stored, productId, removeReply);
            r.outcome.Threw? ==> p.cart == r.cart && p.sent == SentBy(r) && p.toasts == [ToastError(RemoveErrorText)]
    ensures var r := RemoveFromCart(c, stored, productId, removeReply);
            r.outcome.Returned? ==>
              var g := GetCartItems(r.cart, stored, refetchReply);
              p.cart == g.cart
              && p.toasts == [if g.outcome.Threw? then ToastError(RemoveErrorText) else ToastSuccess(RemovedText)]
    ensures p.toasts == [ToastSuccess(RemovedText)] || p.toasts == [ToastError(RemoveErrorText)]
  {
    var m' := m.(isDeleting := None);
    var r := RemoveFromCart(c, stored, productId, removeReply);
    if r.outcome.Returned? && r.outcome.body.status == Some("success") then
      var g := GetCartItems(r.cart, stored, refetchReply);
      var toast := if g.outcome.Threw? then ToastError(RemoveErrorText) else ToastSuccess(RemovedText);
      PageStep(g.cart, m', SentBy(r) + SentBy(g), [toast])
    else if r.outcome.Returned? then
      // The store only returns on a "success" status, so this is the branch
      // the source leaves silent.
      PageStep(r.cart, m', SentBy(r), [])
    else PageStep(r.cart, m', SentBy(r), [ToastError(RemoveErrorText)])
  }

  /** `handleUpdateQuantity`: a count below 1 returns before touching
      anything; otherwise the store is asked and the updating marker is
      cleared afterwards whether or not it succeeded. */
  function HandleUpdateQuantity(c: Cart, m: Marks, stored: Option<string>, productId: string,
                                count: int, reply: Reply): (p: PageStep)
    ensures count < 1 ==> p == PageStep(c, m, [], [])
    ensures count >= 1 ==> p.marks == m.(isUpdating := None)
    ensures count >= 1 ==>
              var u := UpdateCartQuantity(c, stored, productId, count, reply);
              p.cart == u.cart && p.sent == SentBy(u)
              && (u.outcome.Returned? <==> p.toasts == [ToastSuccess(UpdatedText)])
              && (u.outcome.Threw? <==> p.toasts == [ToastError(UpdateErrorText)])
  {
    if count < 1 then PageStep(c, m, [], [])
    else
      var u := UpdateCartQuantity(c, stored, productId, count, reply);
      var toasts :=
        if u.outcome.Threw? then [ToastError(UpdateErrorText)]
        else if u.outcome.body.status == Some("success") then [ToastSuccess(UpdatedText)]
        else [];
      PageStep(u.cart, m.(isUpdating := None), SentBy(u), toasts)
  }

  /** `handleClearCart`: refetches only after a reply whose `message` is
      "success". A failing refetch after a successful clear raises the error
      toast after the success toast. */
  function HandleClearCart(c: Cart, m: Marks, stored: Option<string>, clearReply: Reply, refetchReply: Reply): (p: PageStep)
    ensures p.marks == m
    ensures var k := ClearCart(c, stored, clearReply);
            k.outcome.Returned? <==> HasToken(stored) && p.sent == SentBy(k) + [GetCart(stored.value)]
    ensures var k := ClearCart(c, stored, clearReply);
            k.outcome.Threw? ==> p.cart == k.cart && p.sent == SentBy(k) && p.toasts == [ToastError(ClearErrorText)]
    ensures var k := ClearCart(c, stored, clearReply);
            k.outcome.Returned? ==> |p.toasts| >= 1 && p.toasts[0] == ToastSuccess(ClearedText)
    ensures var k := ClearCart(c, stored, clearReply);
            k.outcome.Returned? ==>
              var g := GetCartItems(k.cart, stored, refetchReply);
              p.cart == g.cart
              && p.toasts == [ToastSuccess(ClearedText)] + (if g.outcome.Threw? then [ToastError(ClearErrorText)] else [])
  {
    var k := ClearCart(c, stored, clearReply);
    match k.outcome
    case Threw(_) => PageStep(k.cart, m, SentBy(k), [ToastError(ClearErrorText)])
    case Returned(b) =>
      if b.message == Some("success") then
        var g := GetCartItems(k.cart, stored, refetchReply);
        var after := if g.outcome.Threw? then [ToastError(ClearErrorText)] else [];
        PageStep(g.cart, m, SentBy(k) + SentBy(g), [ToastSuccess(ClearedText)] + after)
      else PageStep(k.cart, m, SentBy(k), [ToastError(ClearErrorText)])
  }

  /** The decrement button of a line is disabled at count 1 or below, and
      while that line is being updated. */
  predicate DecrementDisabled(line: CartLine, m: Marks) {
    line.count <= 1 || m.isUpdating == Some(line.product.id)
  }

  /** The increment button is disabled only while that line is being updated. */
  predicate IncrementDisabled(line: CartLine, m: Marks) {
    m.isUpdating == Some(line.product.id)
  }

  /** While a line is being updated both its buttons are disabled; otherwise
      only a count of 1 or below disables the decrement, and the increment is
      enabled. */
  lemma ButtonsFrozenWhileUpdating(line: CartLine, m: Marks)
    ensures IncrementDisabled(line, m) ==> DecrementDisabled(line, m)
    ensures !IncrementDisabled(line, m) ==> (DecrementDisabled(line, m) <==> line.count <= 1)
  {
  }

  /** Pressing an enabled increment on a line of the cart asks the store for
      one more unit at that line's `_id`, and afterwards no increment button
      is disabled. */
  lemma EnabledIncrementSendsNextCount(c: Cart, m: Marks, token: string, line: CartLine, reply: Reply)
    requires !IncrementDisabled(line, m) && token != "" && line.count >= 0
    requires Find(c.items, line.product.id) == Some(line)
    ensures var p := HandleUpdateQuantity(c, m, Some(token), line.product.id, line.count + 1, reply);
            p.sent == [PutLine(token, line.product.objectId, line.count + 1)]
            && forall l: CartLine :: !IncrementDisabled(l, p.marks)
  {
  }

  /** The summary's "Items": the number of lines. */
  function ItemsLabel(c: Cart): (n: int)
    ensures n >= 0
    ensures n == 0 <==> c.items == []
  {
    |c.items|
  }

  /** What the page renders: the spinner while loading, then the empty view
      for an empty list, then the lines with the summary. */
  function Render(c: Cart): (v: View)
    ensures c.loading <==> v == Spinner
    ensures v == EmptyCart <==> !c.loading && |c.items| == 0
    ensures v.Listing? ==> v.lines == c.items && v.itemsLabel == |c.items| && v.total == c.total && v.lines != []
  {
    if c.loading then Spinner
    else if |c.items| == 0 then EmptyCart
    else Listing(c.items, ItemsLabel(c), c.total)
  }

  /** The sum of the lines' counts, which the summary does not show. */
  function SumOfCounts(lines: seq<CartLine>): int {
    if lines == [] then 0 else lines[0].count + SumOfCounts(lines[1..])
  }

  // ---------------------------------------------------------------------
  // Properties
  // ---------------------------------------------------------------------

  /** Pressing an enabled decrement button never asks the store for a
      count below 1: the guard passes, and a request, if one is sent, carries
      a count of at least 1. */
  lemma EnabledDecrementStaysPositive(c: Cart, m: Marks, stored: Option<string>, line: CartLine, reply: Reply)
    requires !DecrementDisabled(line, m)
    ensures var p := HandleUpdateQuantity(c, m, stored, line.product.id, line.count - 1, reply);
            p.marks.isUpdating.None?
            && forall q | q in p.sent :: q.PutLine? && q.count >= 1
  {
  }

  /** The busy markers are clear after every remove or update attempt that
      got past the guard, successful or not. */
  lemma MarkersResetAfterEveryAttempt(c: Cart, m: Marks, stored: Option<string>, productId: string,
                                      count: int, r1: Reply, r2: Reply)
    requires count >= 1
    ensures HandleRemoveItem(c, m, stored, productId, r1, r2).marks.isDeleting == None
    ensures HandleUpdateQuantity(c, m, stored, productId, count, r1).marks.isUpdating == None
  {
  }

  /** The summary's "Items" counts lines, not units: a single line of two
      units shows 1. */
  lemma ItemsCountLinesNotUnits(line: CartLine)
    requires line.count == 2
    ensures var c := Cart([line], 2, 0, None, None, false);
            ItemsLabel(c) == 1 && SumOfCounts(c.items) == 2 && Render(c).itemsLabel == 1
  {
    assert [line][1..] == [];
  }
}

=== FILE: cart_store.dfy ===
/** The cart context: a client-side mirror of the remote cart with six
    operations (fetch, add, remove, update quantity, pay, clear) and the
    membership query. Each operation reads the stored token, makes at most one
    request, and then either overwrites some of the mirrored fields from the
    server's reply or throws. The reply is an input: what the server does is
    not modelled. */
module CartStore {
  import opened Common

  /** One line of the cart document: `{product, count, price}`. */
  datatype CartLine = CartLine(product: Product, count: int, price: int)

  /** `response.data.data` of a cart reply. */
  datatype CartData = CartData(products: seq<CartLine>, totalCartPrice: int, cartOwner: Option<string>)

  /** `response.data` of a reply that reached the client: the `status` field
      most operations test, the `message` field clearing tests, and the
      `session` an online checkout answers with. */
  datatype Body = Body(
    status: Option<string>,
    message: Option<string>,
    numOfCartItems: int,
    cartId: Option<string>,
    data: CartData,
    session: PaySession)

  /** `response.data.session`: absent, present without a `url`, or present
      with one. */
  datatype PaySession = NoSession | SessionWithoutUrl | SessionAt(url: string)

  /** What the awaited request yields: a body, or a rejection (network
      failure or an error status) carrying the error's message. */
  datatype Reply = Responded(body: Body) | Rejected(error: string)

  /** The context's state: `cartItems`, `cartCount`, `totalCartPrice`,
      `cartId`, `userId` (the cart owner) and `loading`. */
  datatype Cart = Cart(
    items: seq<CartLine>,
    count: int,
    total: int,
    cartId: Option<string>,
    owner: Option<string>,
    loading: bool)

  /** Shipping details sent with an order. */
  datatype Address = Address(details: string, phone: string, city: string)

  /** The request an operation sends, with the token header it carries. */
  datatype Request =
    | GetCart(token: string)
    | PostCart(token: string, productId: string)
    | DeleteLine(token: string, productId: string)
    | PutLine(token: string, objectId: string, count: int)
    | PostCheckoutSession(token: string, cartId: Option<string>, address: Address)
    | PostCashOrder(token: string, cartId: Option<string>, address: Address)
    | DeleteCart(token: string)

  /** How the operation's promise settles. */
  datatype Outcome = Returned(body: Body) | Threw(message: string)

  /** One atomic run of an operation. */
  datatype Step = Step(cart: Cart, sent: Option<Request>, outcome: Outcome)

  /** The operations, as the view layer invokes them. */
  datatype Op =
    | Fetch
    | Add(productId: string)
    | Remove(productId: string)
    | Update(productId: string, count: int)
    | Pay(address: Address, payMethod: string)
    | Clear

  const NoTokenError := "No authentication token found"
  const ItemNotFound := "Item not found in cart"
  const AddFailed := "Failed to add item to cart"
  const RemoveFailed := "Failed to remove item from cart"
  const UpdateFailed := "Failed to update quantity"
  const PaymentFailed := "Payment processing failed"
  const ClearFailed := "Failed to clear cart"

  /** The state the provider starts in. */
  const Initial := Cart([], 0, 0, None, None, false)

  /** `!token` fails for a missing token and for the empty string. */
  predicate HasToken(stored: Option<string>) {
    Truthy(stored)
  }

  predicate StatusSuccess(b: Body) {
    b.status == Some("success")
  }

  predicate MessageSuccess(b: Body) {
    b.message == Some("success")
  }

  /** `items.find(item => item.product.id === productId)`: the first line
      whose product id matches. */
  function Find(items: seq<CartLine>, productId: string): (r: Option<CartLine>)
    ensures r.Some? <==> exists i | 0 <= i < |items| :: items[i].product.id == productId
    ensures r.Some? ==> r.value in items && r.value.product.id == productId
    ensures r.Some? ==> exists i | 0 <= i < |items| :: items[i] == r.value
                          && forall j | 0 <= j < i :: items[j].product.id != productId
  {
    if items == [] then None
    else if items[0].product.id == productId then Some(items[0])
    else
      var rest := Find(items[1..], productId);
      assert forall i | 1 <= i < |items| :: items[i] == items[1..][i - 1];
      if rest.Some? then
        var k :| 0 <= k < |items[1..]| && items[1..][k] == rest.value
                 && forall j | 0 <= j < k :: items[1..][j].product.id != productId;
        assert items[k + 1] == rest.value;
        assert forall j | 0 <= j < k + 1 :: items[j].product.id != productId;
        rest
      else rest
  }

  /** `isItemInCart`: some line's product id matches. */
  function IsItemInCart(c: Cart, productId: string): (b: bool)
    ensures b <==> exists i | 0 <= i < |c.items| :: c.items[i].product.id == productId
  {
    Find(c.items, productId).Some?
  }

  // ---------------------------------------------------------------------
  // The operations, following the source's control flow.
  // ---------------------------------------------------------------------

  /** `getCartItems`: on any failure, including the missing token, the lines,
      count and total are reset while the cart id and owner stay; a reply
      whose status is not "success" is returned without touching the state. */
  function GetCartItems(c: Cart, stored: Option<string>, reply: Reply): (s: Step)
    ensures Obeys(Fetch, c, stored, reply, s)
  {
    var reset := c.(items := [], count := 0, total := 0, loading := false);
    if !HasToken(stored) then Step(reset, None, Threw(NoTokenError))
    else
      var sent := Some(GetCart(stored.value));
      match reply
      case Rejected(e) => Step(reset, sent, Threw(e))
      case Responded(b) =>
        if b.status == Some("success") then
          Step(c.(items := b.data.products, count := b.numOfCartItems, total := b.data.totalCartPrice,
                  cartId := b.cartId, owner := b.data.cartOwner, loading := false),
               sent, Returned(b))
        else Step(c.(loading := false), sent, Returned(b))
  }

  /** `addToCart(productId)`: posts only the product id; on success the lines,
      count, cart id and owner are refreshed but the total is not. */
  function AddToCart(c: Cart, stored: Option<string>, productId: string, reply: Reply): (s: Step)
    ensures Obeys(Add(productId), c, stored, reply, s)
  {
    var idle := c.(loading := false);
    if !HasToken(stored) then Step(idle, None, Threw(NoTokenError))
    else
      var sent := Some(PostCart(stored.value, productId));
      match reply
      case Rejected(e) => Step(idle, sent, Threw(e))
      case Responded(b) =>
        if b.status == Some("success") then
          Step(c.(count := b.numOfCartItems, items := b.data.products, cartId := b.cartId,
                  owner := b.data.cartOwner, loading := false),
               sent, Returned(b))
        else Step(idle, sent, Threw(AddFailed))
  }

  /** `removeFromCart(productId)`: on success every mirrored field is taken
      from the reply. */
  function RemoveFromCart(c: Cart, stored: Option<string>, productId: string, reply: Reply): (s: Step)
    ensures Obeys(Remove(productId), c, stored, reply, s)
  {
    var idle := c.(loading := false);
    if !HasToken(stored) then Step(idle, None, Threw(NoTokenError))
    else
      var sent := Some(DeleteLine(stored.value, productId));
      match reply
      case Rejected(e) => Step(idle, sent, Threw(e))
      case Responded(b) =>
        if b.status == Some("success") then
          Step(c.(items := b.data.products, count := b.numOfCartItems, total := b.data.totalCartPrice,
                  cartId := b.cartId, owner := b.data.cartOwner, loading := false),
               sent, Returned(b))
        else Step(idle, sent, Threw(RemoveFailed))
  }

  /** `updateCartQuantity(productId, count)`: looks the line up by product id
      before any request and addresses the request by that line's `_id`; on
      success the owner is not refreshed. */
  function UpdateCartQuantity(c: Cart, stored: Option<string>, productId: string, count: int, reply: Reply): (s: Step)
    ensures Obeys(Update(productId, count), c, stored, reply, s)
  {
    var idle := c.(loading := false);
    if !HasToken(stored) then Step(idle, None, Threw(NoTokenError))
    else
      var item := Find(c.items, productId);
      if item.None? then Step(idle, None, Threw(ItemNotFound))
      else
        var sent := Some(PutLine(stored.value, item.value.product.objectId, count));
        match reply
        case Rejected(e) => Step(idle, sent, Threw(e))
        case Responded(b) =>
          if b.status == Some("success") then
            Step(c.(items := b.data.products, total := b.data.totalCartPrice, count := b.numOfCartItems,
                    cartId := b.cartId, loading := false),
                 sent, Returned(b))
          else Step(idle, sent, Threw(UpdateFailed))
  }

  /** `Payment(shippingAddress, paymentMethod)`: the checkout-session endpoint
      for exactly "online", the cash endpoint otherwise; on success the lines,
      count and total are emptied and the cart id is kept. */
  function Payment(c: Cart, stored: Option<string>, address: Address, payMethod: string, reply: Reply): (s: Step)
    ensures Obeys(Pay(address, payMethod), c, stored, reply, s)
  {
    var idle := c.(loading := false);
    if !HasToken(stored) then Step(idle, None, Threw(NoTokenError))
    else
      var sent :=
        if payMethod == "online" then Some(PostCheckoutSession(stored.value, c.cartId, address))
        else Some(PostCashOrder(stored.value, c.cartId, address));
      match reply
      case Rejected(e) => Step(idle, sent, Threw(e))
      case Responded(b) =>
        if b.status == Some("success") then
          Step(c.(items := [], count := 0, total := 0, loading := false), sent, Returned(b))
        else Step(idle, sent, Threw(PaymentFailed))
  }

  /** `clearCart`: succeeds on the reply's `message`, not its `status`; then
      empties the lines, count and total and drops the cart id. */
  function ClearCart(c: Cart, stored: Option<string>, reply: Reply): (s: Step)
    ensures Obeys(Clear, c, stored, reply, s)
  {
    var idle := c.(loading := false);
    if !HasToken(stored) then Step(idle, None, Threw(NoTokenError))
    else
      var sent := Some(DeleteCart(stored.value));
      match reply
      case Rejected(e) => Step(idle, sent, Threw(e))
      case Responded(b) =>
        if b.message == Some("success") then
          Step(c.(items := [], count := 0, total := 0, cartId := None, loading := false), sent, Returned(b))
        else Step(idle, sent, Threw(ClearFailed))
  }

  /** Runs one operation. */
  function Run(op: Op, c: Cart, stored: Option<string>, reply: Reply): (s: Step)
    ensures Obeys(op, c, stored, reply, s)
  {
    match op
    case Fetch => GetCartItems(c, stored, reply)
    case Add(p) => AddToCart(c, stored, p, reply)
    case Remove(p) => RemoveFromCart(c, stored, p, reply)
    case Update(p, n) => UpdateCartQuantity(c, stored, p, n, reply)
    case Pay(a, m) => Payment(c, stored, a, m, reply)
    case Clear => ClearCart(c, stored, reply)
  }

  // ---------------------------------------------------------------------
  // Reference semantics: a table of which mirrored fields each operation
  // owns, what a success writes there, and what a failure resets.
  // ---------------------------------------------------------------------

  datatype Field = Items | Count | Total | CartId | Owner

  /** A field's value, whatever its type. */
  datatype Value = Lines(lines: seq<CartLine>) | Number(n: int) | Ident(id: Option<string>)

  function Get(c: Cart, f: Field): Value {
    match f
    case Items => Lines(c.items)
    case Count => Number(c.count)
    case Total => Number(c.total)
    case CartId => Ident(c.cartId)
    case Owner => Ident(c.owner)
  }

  /** The fields a successful run of the operation overwrites. */
  function Written(op: Op): set<Field> {
    match op
    case Fetch => {Items, Count, Total, CartId, Owner}
    case Add(_) => {Items, Count, CartId, Owner}
    case Remove(_) => {Items, Count, Total, CartId, Owner}
    case Update(_, _) => {Items, Count, Total, CartId}
    case Pay(_, _) => {Items, Count, Total}
    case Clear => {Items, Count, Total, CartId}
  }

  /** The reply's value for a field. */
  function Mirrored(b: Body, f: Field): Value {
    match f
    case Items => Lines(b.data.products)
    case Count => Number(b.numOfCartItems)
    case Total => Number(b.data.totalCartPrice)
    case CartId => Ident(b.cartId)
    case Owner => Ident(b.data.cartOwner)
  }

  /** A field's value in an emptied cart. */
  function Emptied(f: Field): Value {
    match f
    case Items => Lines([])
    case Count => Number(0)
    case Total => Number(0)
    case CartId => Ident(None)
    case Owner => Ident(None)
  }

  /** Paying and clearing empty the fields they own; the others copy the reply. */
  function Target(op: Op, b: Body, f: Field): Value {
    if op.Pay? || op.Clear? then Emptied(f) else Mirrored(b, f)
  }

  /** The reply field an operation tests for success. */
  predicate Accepts(op: Op, b: Body) {
    if op.Clear? then MessageSuccess(b) else StatusSuccess(b)
  }

  /** The fixed message an operation throws on a reply it does not accept. */
  function Rejection(op: Op): string {
    match op
    case Fetch => ""
    case Add(_) => AddFailed
    case Remove(_) => RemoveFailed
    case Update(_, _) => UpdateFailed
    case Pay(_, _) => PaymentFailed
    case Clear => ClearFailed
  }

  /** The state after a failed run: fetching resets lines, count and total;
      every other operation leaves the mirrored fields alone. */
  function AfterFailure(op: Op, c: Cart): Cart {
    if op.Fetch? then c.(items := [], count := 0, total := 0, loading := false)
    else c.(loading := false)
  }

  /** The local check an operation makes after the token and before any
      request: only a quantity update has one, that the line exists. */
  predicate LocallyAdmitted(op: Op, c: Cart) {
    op.Update? ==> exists i | 0 <= i < |c.items| :: c.items[i].product.id == op.productId
  }

  /** The request a locally admitted operation sends. */
  function RequestFor(op: Op, token: string, c: Cart): Request
    requires LocallyAdmitted(op, c)
  {
    match op
    case Fetch => GetCart(token)
    case Add(p) => PostCart(token, p)
    case Remove(p) => DeleteLine(token, p)
    case Update(p, n) => PutLine(token, Find(c.items, p).value.product.objectId, n)
    case Pay(a, m) =>
      if m == "online" then PostCheckoutSession(token, c.cartId, a) else PostCashOrder(token, c.cartId, a)
    case Clear => DeleteCart(token)
  }

  /** Exactly the fields the operation owns are rewritten, and nothing else. */
  ghost predicate Rewrote(op: Op, b: Body, c: Cart, c': Cart) {
    && !c'.loading
    && forall f: Field :: Get(c', f) == (if f in Written(op) then Target(op, b, f) else Get(c, f))
  }

  /** The contract every operation keeps. */
  ghost predicate Obeys(op: Op, c: Cart, stored: Option<string>, reply: Reply, s: Step) {
    && !s.cart.loading
    && if !HasToken(stored) then
         s.sent.None? && s.outcome == Threw(NoTokenError) && s.cart == AfterFailure(op, c)
       else if !LocallyAdmitted(op, c) then
         s.sent.None? && s.outcome == Threw(ItemNotFound) && s.cart == AfterFailure(op, c)
       else
         && s.sent == Some(RequestFor(op, stored.value, c))
         && match reply
            case Rejected(e) => s.outcome == Threw(e) && s.cart == AfterFailure(op, c)
            case Responded(b) =>
              if Accepts(op, b) then s.outcome == Returned(b) && Rewrote(op, b, c, s.cart)
              else if op.Fetch? then s.outcome == Returned(b) && s.cart == c.(loading := false)
              else s.outcome == Threw(Rejection(op)) && s.cart == AfterFailure(op, c)
  }
}

=== FILE: checkout.dfy ===
/** The checkout page: its shipping-form schema, the submit button's
    enabling rule, and `handleCheckOut`, which checks for a cart id and a
    payment method before handing the order to the cart store and then
    redirects or navigates according to the method. */
module CheckOut {
  import opened Common
  import opened CartStore
  import FormRules

  /** `\s` in a JavaScript pattern: the ECMAScript white-space and
      line-terminator characters. */
  predicate IsJsSpace(c: char) {
    || c == ' ' || c == '\t' || c == '\n' || c == '\U{000B}' || c == '\U{000C}' || c == '\r'
    || c == '\U{00A0}' || c == '\U{1680}' || ('\U{2000}' <= c <= '\U{200A}')
    || c == '\U{2028}' || c == '\U{2029}' || c == '\U{202F}' || c == '\U{205F}'
    || c == '\U{3000}' || c == '\U{FEFF}'
  }

  /** `details`: required, at least 10 and at most 200 characters. */
  predicate DetailsValid(s: string) {
    FormRules.Required(s) && |s| >= 10 && |s| <= 200
  }

  /** `city`: required, at least 3 characters, and `/^[a-zA-Z\s]*$/`. */
  predicate CityValid(s: string) {
    FormRules.Required(s) && |s| >= 3 && forall i | 0 <= i < |s| :: FormRules.IsLetter(s[i]) || IsJsSpace(s[i])
  }

  /** The whole shipping form. */
  predicate FormValid(a: Address) {
    DetailsValid(a.details) && FormRules.PhoneValid(a.phone) && CityValid(a.city)
  }

  /** The form's starting values. */
  const InitialForm := Address("", "", "")

  /** The submit button is enabled only for a valid, edited form while no
      checkout is in flight. */
  predicate SubmitEnabled(a: Address, isLoading: bool) {
    FormValid(a) && a != InitialForm && !isLoading
  }

  const NoCartText := "Please add products to cart first"
  const SuccessText := "Order processed successfully"
  const NoMethodText := "Please select a payment method"
  const OrderFailedText := "Order processing failed"
  const FallbackText := "Something went wrong"
  /** The TypeError raised by reading `url` of a missing `session`, in the
      wording of the V8 engine. */
  const MissingSessionText := "Cannot read properties of undefined (reading 'url')"

  /** What `location.href` is set to from a present session: its `url`, or
      `undefined`, which the browser reads as the relative URL "undefined". */
  function Href(s: PaySession): string {
    match s
    case SessionAt(url) => url
    case _ => "undefined"
  }

  /** One checkout attempt: the store afterwards, the request sent if any,
      the toast left on screen, where the browser goes, and `isLoading`. */
  datatype Attempt = Attempt(cart: Cart, sent: Option<Request>, notice: Toast, nav: Nav, isLoading: bool)

  /** `handleCheckOut(values)`. A missing cart id is reported first, then a
      missing method, and in both cases the store is not called. */
  function HandleCheckOut(c: Cart, stored: Option<string>, payMethod: string, values: Address, reply: Reply): (r: Attempt)
    ensures !r.isLoading
    ensures !Truthy(c.cartId) ==> r == Attempt(c, None, ToastError(NoCartText), Stay, false)
    ensures Truthy(c.cartId) && payMethod == "" ==> r == Attempt(c, None, ToastError(NoMethodText), Stay, false)
    ensures Truthy(c.cartId) && payMethod != "" ==>
              var p := Payment(c, stored, values, payMethod, reply);
              r.cart == p.cart && r.sent == p.sent
              && (r.nav != Stay <==> p.outcome.Returned? && (payMethod != "online" || !p.outcome.body.session.NoSession?))
              && (r.nav != Stay ==> r.notice == ToastSuccess(SuccessText))
              && (r.nav.NavigateTo? ==> payMethod != "online" && r.nav.path == "/AllOrders")
              && (r.nav.RedirectTo? ==> payMethod == "online" && r.nav.url == Href(p.outcome.body.session))
              && (p.outcome.Returned? && payMethod == "online" && p.outcome.body.session.NoSession? ==>
                    r.notice == ToastError(MissingSessionText))
              && (p.outcome.Threw? ==> r.notice == ToastError(OrElse(Some(p.outcome.message), FallbackText)))
  {
    if !Truthy(c.cartId) then Attempt(c, None, ToastError(NoCartText), Stay, false)
    else if payMethod == "" then Attempt(c, None, ToastError(NoMethodText), Stay, false)
    else
      var p := Payment(c, stored, values, payMethod, reply);
      match p.outcome
      case Threw(e) => Attempt(p.cart, p.sent, ToastError(OrElse(Some(e), FallbackText)), Stay, false)
      case Returned(b) =>
        if b.status == Some("success") then
          if payMethod == "online" then
            match b.session
            case SessionAt(url) => Attempt(p.cart, p.sent, ToastSuccess(SuccessText), RedirectTo(url), false)
            case SessionWithoutUrl => Attempt(p.cart, p.sent, ToastSuccess(SuccessText), RedirectTo("undefined"), false)
            // The success toast is replaced by the TypeError's message.
            case NoSession => Attempt(p.cart, p.sent, ToastError(MissingSessionText), Stay, false)
          else Attempt(p.cart, p.sent, ToastSuccess(SuccessText), NavigateTo("/AllOrders"), false)
        else Attempt(p.cart, p.sent, ToastError(OrderFailedText), Stay, false)
  }

  /** The store already throws on a non-success status, so the page's own
      "Order processing failed" branch is never reached: a refused order
      shows the store's "Payment processing failed". */
  lemma OrderFailedIsUnreachable(c: Cart, stored: Option<string>, payMethod: string, values: Address, reply: Reply)
    ensures var p := Payment(c, stored, values, payMethod, reply);
            p.outcome.Returned? ==> StatusSuccess(p.outcome.body)
    ensures Truthy(c.cartId) && payMethod != "" && HasToken(stored)
            && reply.Responded? && !StatusSuccess(reply.body)
            ==> HandleCheckOut(c, stored, payMethod, values, reply).notice == ToastError(PaymentFailed)
  {
  }

  /** A successful cash order keeps the cart id, so submitting the same form
      again passes both checks and sends a second order for the same cart. */
  lemma CashOrderCanBeRepeated(c: Cart, token: string, payMethod: string, values: Address, reply: Reply, again: Reply)
    requires token != "" && Truthy(c.cartId) && payMethod != "" && payMethod != "online"
    requires reply.Responded? && StatusSuccess(reply.body)
    ensures var first := HandleCheckOut(c, Some(token), payMethod, values, reply);
            var second := HandleCheckOut(first.cart, Some(token), payMethod, values, again);
            first.nav == NavigateTo("/AllOrders")
            && first.sent == Some(PostCashOrder(token, c.cartId, values))
            && second.sent == first.sent
  {
  }

  /** `required` adds nothing to the details rule: the length bounds alone
      decide it, both ends inclusive. */
  lemma DetailsLengthBounds(s: string)
    ensures DetailsValid(s) <==> 10 <= |s| <= 200
  {
  }

  /** The city rule takes ASCII letters and white space only: a space
      inside a name is fine, a hyphen or digit is not, and two letters are
      too few. */
  lemma CityExamples()
    ensures CityValid("New Cairo") && CityValid("Giza")
    ensures !CityValid("Al-Arish") && !CityValid("Giza2") && !CityValid("Eg")
  {
    assert !FormRules.IsLetter('-') && !IsJsSpace('-');
    assert "Al-Arish"[2] == '-';
    assert "Giza2"[4] == '2' && !FormRules.IsLetter('2') && !IsJsSpace('2');
  }

  /** The validators reject the empty form, so the button starts disabled. */
  lemma SubmitStartsDisabled(isLoading: bool)
    ensures !SubmitEnabled(InitialForm, isLoading)
  {
  }
}

=== FILE: common.dfy ===
/** Vocabulary shared by the storefront's components: optional values, the
    product reference the remote API returns, what a handler shows or where it
    navigates, and the order-keeping filter that `Array.prototype.filter` is. */
module Common {

  /** `null`/`undefined` versus a present value. */
  datatype Option<+T> = None | Some(value: T)

  /** JavaScript truthiness of an optional string: absent and "" are falsy. */
  predicate Truthy(o: Option<string>) {
    o.Some? && o.value != ""
  }

  /** `o || fallback` for an optional string. */
  function OrElse(o: Option<string>, fallback: string): string {
    if Truthy(o) then o.value else fallback
  }

  /** A catalog product as the remote API returns it: a public `id` and the
      database key `_id`. Nothing in the client forces the two to agree. */
  datatype Product = Product(id: string, objectId: string)

  /** A toast notification a handler raises. */
  datatype Toast = ToastSuccess(text: string) | ToastError(text: string)

  /** Where a handler sends the browser afterwards. */
  datatype Nav = Stay | NavigateTo(path: string) | RedirectTo(url: string)

  /** `xs.filter(keep)`: the elements that pass, in their original order. */
  function Filter<T>(xs: seq<T>, keep: T -> bool): (r: seq<T>)
    ensures |r| <= |xs|
    ensures forall i | 0 <= i < |r| :: r[i] in xs && keep(r[i])
    ensures forall i | 0 <= i < |xs| && keep(xs[i]) :: xs[i] in r
  {
    if xs == [] then []
    else if keep(xs[0]) then [xs[0]] + Filter(xs[1..], keep)
    else Filter(xs[1..], keep)
  }

  /** Filtering a concatenation filters each part and keeps the parts in
      order, so the filter never reorders what it keeps. */
  lemma {:induction false} FilterAppend<T>(a: seq<T>, b: seq<T>, keep: T -> bool)
    ensures Filter(a + b, keep) == Filter(a, keep) + Filter(b, keep)
  {
    if a == [] {
      assert a + b == b;
    } else {
      assert (a + b)[1..] == a[1..] + b;
      FilterAppend(a[1..], b, keep);
    }
  }

  /** `xs.slice(0, n)`. */
  function Take<T>(xs: seq<T>, n: nat): (r: seq<T>)
    ensures |r| == if n < |xs| then n else |xs|
    ensures forall i | 0 <= i < |r| :: r[i] == xs[i]
  {
    if n < |xs| then xs[..n] else xs
  }
}

=== FILE: form_rules.dfy ===
/** The client-side validation rules written out in the registration, login
    and checkout schemas: the Egyptian phone pattern shared by registration
    and checkout, the password pattern shared by registration and login, and
    the registration name pattern. Each pattern is given twice: once shaped
    like the regular expression, and once as an independent character-level
    description, with a lemma that the two agree. */
module FormRules {
  import opened Common

  predicate IsLower(c: char) { 'a' <= c <= 'z' }
  predicate IsUpper(c: char) { 'A' <= c <= 'Z' }
  predicate IsLetter(c: char) { IsLower(c) || IsUpper(c) }
  predicate IsDigit(c: char) { '0' <= c <= '9' }

  /** Yup's `required()` on a string rejects only the empty string. */
  predicate Required(s: string) { s != "" }

  // ---------------------------------------------------------------------
  // Phone: /^(\+201|01|00201)[0-2,5]{1}[0-9]{8}/ with no end anchor.
  // ---------------------------------------------------------------------

  /** `[0-2,5]`: the class holds '0', '1', '2', ',' and '5'. */
  predicate IsOperatorChar(c: char) {
    c == '0' || c == '1' || c == '2' || c == ',' || c == '5'
  }

  /** The string starts with `lead`, then an operator character, then eight
      digits; anything may follow. */
  predicate HeadWith(s: string, lead: string) {
    && |s| >= |lead| + 9
    && s[..|lead|] == lead
    && IsOperatorChar(s[|lead|])
    && forall i | |lead| + 1 <= i < |lead| + 9 :: IsDigit(s[i])
  }

  /** The alternatives in the order the pattern lists them. */
  const Leads: seq<string> := ["+201", "01", "00201"]

  /** Tries the alternatives in order, as a backtracking matcher does, and
      yields the length of the matched head. */
  function MatchPhone(s: string): (r: Option<nat>)
    ensures r.Some? <==> exists k | 0 <= k < |Leads| :: HeadWith(s, Leads[k])
    ensures r.Some? ==> r.value <= |s| && (r.value == 13 || r.value == 11 || r.value == 14)
  {
    if HeadWith(s, Leads[0]) then Some(13)
    else if HeadWith(s, Leads[1]) then Some(11)
    else if HeadWith(s, Leads[2]) then Some(14)
    else None
  }

  /** The phone rule of both schemas: required, and the pattern matches. */
  predicate PhoneValid(s: string) {
    Required(s) && MatchPhone(s).Some?
  }

  /** Only the head is checked: whatever follows a valid head is accepted. */
  lemma PhoneIgnoresSuffix(s: string, t: string)
    requires PhoneValid(s)
    ensures PhoneValid(s + t)
  {
    var k :| 0 <= k < |Leads| && HeadWith(s, Leads[k]);
    var lead := Leads[k];
    assert (s + t)[..|lead|] == s[..|lead|];
    assert forall i | 0 <= i < |s| :: (s + t)[i] == s[i];
    assert HeadWith(s + t, lead);
  }

  /** A valid phone is valid because of its head alone. */
  lemma PhoneDecidedByHead(s: string)
    requires PhoneValid(s)
    ensures PhoneValid(s[..MatchPhone(s).value])
  {
    var n := MatchPhone(s).value;
    var h := s[..n];
    assert forall i | 0 <= i < n :: h[i] == s[i];
    if HeadWith(s, "+201") {
      assert h[..4] == s[..4];
      assert HeadWith(h, "+201");
    } else if HeadWith(s, "01") {
      assert h[..2] == s[..2];
      assert HeadWith(h, "01");
    } else {
      assert h[..5] == s[..5];
      assert HeadWith(h, "00201");
    }
  }

  /** The class `[0-2,5]` lets a comma through, and trailing text is ignored. */
  lemma PhoneAcceptsCommaAndTrailingText()
    ensures PhoneValid("01,12345678")
    ensures PhoneValid("01012345678 call after 5pm")
    ensures !PhoneValid("0131234567890")
  {
    assert HeadWith("01,12345678", "01");
    assert HeadWith("01012345678 call after 5pm", "01");
    assert !HeadWith("0131234567890", "01");
    assert !HeadWith("0131234567890", "+201");
    assert !HeadWith("0131234567890", "00201");
  }

  // ---------------------------------------------------------------------
  // Password: required, min 8, and
  // /^(?=.*[a-z])(?=.*[A-Z])(?=.*\d)(?=.*[@$!%*?&])[A-Za-z\d@$!%*?&]{8,}$/
  // ---------------------------------------------------------------------

  predicate IsPasswordSpecial(c: char) {
    c == '@' || c == '$' || c == '!' || c == '%' || c == '*' || c == '?' || c == '&'
  }

  predicate IsPasswordChar(c: char) {
    IsLetter(c) || IsDigit(c) || IsPasswordSpecial(c)
  }

  /** The pattern: four look-aheads, then eight or more allowed characters
      up to the end. */
  predicate PasswordPattern(s: string) {
    && (exists i | 0 <= i < |s| :: IsLower(s[i]))
    && (exists i | 0 <= i < |s| :: IsUpper(s[i]))
    && (exists i | 0 <= i < |s| :: IsDigit(s[i]))
    && (exists i | 0 <= i < |s| :: IsPasswordSpecial(s[i]))
    && |s| >= 8
    && forall i | 0 <= i < |s| :: IsPasswordChar(s[i])
  }

  /** The password rule of the registration and login schemas. */
  predicate PasswordValid(s: string) {
    Required(s) && |s| >= 8 && PasswordPattern(s)
  }

  /** Which character classes a prefix has shown so far. */
  datatype Seen = Seen(lower: bool, upper: bool, digit: bool, special: bool, allowed: bool)

  /** One left-to-right pass over the password, recording the classes seen. */
  function Scan(s: string): (r: Seen)
    ensures r.lower <==> exists i | 0 <= i < |s| :: IsLower(s[i])
    ensures r.upper <==> exists i | 0 <= i < |s| :: IsUpper(s[i])
    ensures r.digit <==> exists i | 0 <= i < |s| :: IsDigit(s[i])
    ensures r.special <==> exists i | 0 <= i < |s| :: IsPasswordSpecial(s[i])
    ensures r.allowed <==> forall i | 0 <= i < |s| :: IsPasswordChar(s[i])
  {
    if s == [] then Seen(false, false, false, false, true)
    else
      var rest := Scan(s[..|s| - 1]);
      var c := s[|s| - 1];
      assert forall i | 0 <= i < |s| - 1 :: s[..|s| - 1][i] == s[i];
      Seen(rest.lower || IsLower(c), rest.upper || IsUpper(c), rest.digit || IsDigit(c),
           rest.special || IsPasswordSpecial(c), rest.allowed && IsPasswordChar(c))
  }

  /** The single-pass check decides exactly the password rule; the required
      and minimum-length checks add nothing to the pattern. */
  lemma PasswordByScan(s: string)
    ensures PasswordValid(s) <==> PasswordPattern(s)
    ensures PasswordValid(s) <==>
              var r := Scan(s); |s| >= 8 && r.lower && r.upper && r.digit && r.special && r.allowed
  {
  }

  // ---------------------------------------------------------------------
  // Name: required, min 3, and /^[a-zA-Z]{3,}(?:[ '-][a-zA-Z]+)*$/
  // ---------------------------------------------------------------------

  /** `[ '-]`: the separators a name may contain. */
  predicate IsNameSep(c: char) {
    c == ' ' || c == '\'' || c == '-'
  }

  /** The length of the longest prefix made of letters. */
  function LetterRun(s: string): (n: nat)
    ensures n <= |s|
    ensures forall i | 0 <= i < n :: IsLetter(s[i])
    ensures n < |s| ==> !IsLetter(s[n])
  {
    if s == [] || !IsLetter(s[0]) then 0
    else 1 + LetterRun(s[1..])
  }

  /** `(?:[ '-][a-zA-Z]+)*$`: zero or more groups of a separator and a run
      of letters, up to the end. A separator is not a letter, so each run is
      taken whole, as the pattern must. */
  predicate NameGroups(s: string)
    decreases |s|
  {
    if s == [] then true
    else
      && IsNameSep(s[0])
      && |s| >= 2
      && IsLetter(s[1])
      && NameGroups(s[1 + LetterRun(s[1..])..])
  }

  /** The whole pattern: at least three letters, then the groups. */
  predicate NamePattern(s: string) {
    LetterRun(s) >= 3 && NameGroups(s[LetterRun(s)..])
  }

  /** The name rule of the registration schema. */
  predicate NameValid(s: string) {
    Required(s) && |s| >= 3 && NamePattern(s)
  }

  /** Every character is a letter or separator, and every separator is
      followed by a letter. */
  predicate SeparatedLetters(s: string) {
    && (forall i | 0 <= i < |s| :: IsLetter(s[i]) || IsNameSep(s[i]))
    && (forall i | 0 <= i < |s| && IsNameSep(s[i]) :: i + 1 < |s| && IsLetter(s[i + 1]))
  }

  /** The character-level description of a valid name: three letters first,
      only letters and separators, and never a separator that is last or
      followed by another separator. */
  predicate NameShape(s: string) {
    |s| >= 3 && IsLetter(s[0]) && IsLetter(s[1]) && IsLetter(s[2]) && SeparatedLetters(s)
  }

  /** Cutting a string after a run of letters preserves the separator rule
      in both directions. */
  lemma SeparatedAfterLetters(s: string, k: nat)
    requires k <= |s|
    requires forall i | 0 <= i < k :: IsLetter(s[i])
    ensures SeparatedLetters(s) <==> SeparatedLetters(s[k..])
  {
    var t := s[k..];
    assert forall i | 0 <= i < |t| :: t[i] == s[k + i];
    if SeparatedLetters(t) {
      forall i | 0 <= i < |s| && IsNameSep(s[i])
        ensures i + 1 < |s| && IsLetter(s[i + 1])
      {
        assert i >= k;
        assert IsNameSep(t[i - k]);
      }
      forall i | 0 <= i < |s|
        ensures IsLetter(s[i]) || IsNameSep(s[i])
      {
        if i >= k {
          assert t[i - k] == s[i];
        }
      }
    }
  }

  /** A leading separator followed by a letter keeps the separator rule
      exactly when the rest keeps it. */
  lemma SeparatedAfterSep(s: string)
    requires |s| >= 2 && IsNameSep(s[0]) && IsLetter(s[1])
    ensures SeparatedLetters(s) <==> SeparatedLetters(s[1..])
  {
    var u := s[1..];
    assert forall i | 0 <= i < |u| :: u[i] == s[i + 1];
    if SeparatedLetters(u) {
      forall i | 0 <= i < |s| && IsNameSep(s[i])
        ensures i + 1 < |s| && IsLetter(s[i + 1])
      {
        if i > 0 {
          assert IsNameSep(u[i - 1]);
        }
      }
      forall i | 0 <= i < |s|
        ensures IsLetter(s[i]) || IsNameSep(s[i])
      {
        if i > 0 {
          assert u[i - 1] == s[i];
        }
      }
    }
    if SeparatedLetters(s) {
      forall i | 0 <= i < |u| && IsNameSep(u[i])
        ensures i + 1 < |u| && IsLetter(u[i + 1])
      {
        assert IsNameSep(s[i + 1]);
      }
    }
  }

  /** A separator that is last or not followed by a letter breaks the rule. */
  lemma SeparatorNeedsLetter(s: string)
    requires s != [] && IsNameSep(s[0])
    requires |s| < 2 || !IsLetter(s[1])
    ensures !SeparatedLetters(s)
  {
  }

  /** The groups are exactly the strings that are empty, or start with a
      separator and keep the separator rule. */
  lemma {:induction false} GroupsIffSeparated(s: string)
    decreases |s|
    ensures NameGroups(s) <==> (s == [] || (IsNameSep(s[0]) && SeparatedLetters(s)))
  {
    if s == [] || !IsNameSep(s[0]) {
    } else if |s| < 2 || !IsLetter(s[1]) {
      SeparatorNeedsLetter(s);
    } else {
      var u := s[1..];
      var k := LetterRun(u);
      var rest := u[k..];
      assert NameGroups(s) == NameGroups(rest);
      GroupsIffSeparated(rest);
      SeparatedAfterLetters(u, k);
      SeparatedAfterSep(s);
      if rest != [] && SeparatedLetters(rest) {
        assert rest[0] == u[k];
        assert IsLetter(rest[0]) || IsNameSep(rest[0]);
      }
    }
  }

  /** The regular-expression shape and the character-level description of a
      valid name agree on every string. */
  lemma NamePatternIffShape(s: string)
    ensures NameValid(s) <==> NameShape(s)
  {
    var k := LetterRun(s);
    var rest := s[k..];
    GroupsIffSeparated(rest);
    SeparatedAfterLetters(s, k);
    if rest != [] {
      assert rest[0] == s[k];
    }
    if NameShape(s) {
      assert k >= 1;
      assert s[1..][0] == s[1];
      assert LetterRun(s[1..]) >= 1;
      assert s[1..][1..][0] == s[2];
      assert LetterRun(s[1..][1..]) >= 1;
      assert k >= 3;
    }
    if NameValid(s) {
      assert IsLetter(s[0]) && IsLetter(s[1]) && IsLetter(s[2]);
    }
  }
}

=== FILE: liked_products.dfy ===
/** The liked-products list shared by the product grid and the wishlist. In
    the browser it is a JavaScript `Set` of product ids, which keeps its
    elements in insertion order without repeats, persisted under
    `likedProducts` as the list of its elements. Here it is that list. */
module LikedProducts {
  import Common

  /** No id occurs twice. */
  predicate NoDup(s: seq<string>) {
    forall i, j | 0 <= i < j < |s| :: s[i] != s[j]
  }

  /** What the `likedProducts` storage entry holds: nothing, text that does
      not parse as a list of ids, or a list. */
  datatype Saved = Nothing | Garbage | List(ids: seq<string>)

  /** `new Set(ids)`: the first occurrence of each id, in order. */
  function Dedup(ids: seq<string>): (s: seq<string>)
    ensures NoDup(s)
    ensures forall x :: x in s <==> x in ids
    ensures |s| <= |ids|
  {
    if ids == [] then []
    else
      var front := Dedup(ids[..|ids| - 1]);
      var last := ids[|ids| - 1];
      assert ids == ids[..|ids| - 1] + [last];
      if last in front then front else front + [last]
  }

  /** Every prefix of the list dedups to a prefix of the whole result: each
      id sits where it first occurred, and the ids keep that order. */
  lemma {:induction false} DedupKeepsFirstOrder(ids: seq<string>, k: nat)
    requires k <= |ids|
    ensures Dedup(ids[..k]) <= Dedup(ids)
  {
    if k < |ids| {
      var front := ids[..|ids| - 1];
      assert ids[..k] == front[..k];
      DedupKeepsFirstOrder(front, k);
    } else {
      assert ids[..k] == ids;
    }
  }

  /** A list without repeats is its own set. */
  lemma {:induction false} DedupOfDistinct(ids: seq<string>)
    requires NoDup(ids)
    ensures Dedup(ids) == ids
  {
    if ids != [] {
      var front := ids[..|ids| - 1];
      assert NoDup(front);
      DedupOfDistinct(front);
      assert ids[|ids| - 1] !in front;
      assert front + [ids[|ids| - 1]] == ids;
    }
  }

  /** The initial set: the saved list's ids, or empty when nothing is saved
      or the saved text does not parse. */
  function Load(saved: Saved): (s: seq<string>)
    ensures NoDup(s)
    ensures saved.List? ==> forall x :: x in s <==> x in saved.ids
    ensures !saved.List? ==> s == []
  {
    match saved
    case List(ids) => Dedup(ids)
    case _ => []
  }

  /** `JSON.stringify([...set])`. */
  function Persist(s: seq<string>): Saved {
    List(s)
  }

  /** What is persisted loads back as the same set, in the same order. */
  lemma LoadPersist(s: seq<string>)
    requires NoDup(s)
    ensures Load(Persist(s)) == s
  {
    DedupOfDistinct(s);
  }

  /** `set.delete(id)`: every other id keeps its place (`DeleteIsFilter`). */
  function Delete(s: seq<string>, id: string): (r: seq<string>)
    ensures forall x :: x in r <==> x in s && x != id
    ensures NoDup(s) ==> NoDup(r)
    ensures id !in s ==> r == s
    ensures |r| <= |s|
  {
    if s == [] then []
    else
      var rest := Delete(s[1..], id);
      assert s == [s[0]] + s[1..];
      assert NoDup(s) ==> NoDup(s[1..]) && s[0] !in s[1..] && s[0] !in rest;
      assert forall j | 1 <= j < |[s[0]] + rest| :: ([s[0]] + rest)[j] == rest[j - 1];
      if s[0] == id then rest else [s[0]] + rest
  }

  /** Deleting an id is filtering out exactly that id, so the remaining ids
      keep their order. */
  lemma {:induction false} DeleteIsFilter(s: seq<string>, id: string)
    ensures Delete(s, id) == Common.Filter(s, Other(id))
  {
    if s != [] {
      DeleteIsFilter(s[1..], id);
    }
  }

  /** The test `filter` would use to drop `id`. */
  function Other(id: string): string -> bool {
    x => x != id
  }

  /** `set.add(id)`: appended when absent, a no-op when present. */
  function Insert(s: seq<string>, id: string): (r: seq<string>)
    ensures forall x :: x in r <==> x in s || x == id
    ensures NoDup(s) ==> NoDup(r)
    ensures id in s ==> r == s
    ensures id !in s ==> r == s + [id]
  {
    if id in s then s else s + [id]
  }

  /** `toggleLike(id)`: removed when present, added when absent. */
  function Toggle(s: seq<string>, id: string): (r: seq<string>)
    ensures id in r <==> id !in s
    ensures forall x | x != id :: x in r <==> x in s
    ensures NoDup(s) ==> NoDup(r)
  {
    if id in s then Delete(s, id) else Insert(s, id)
  }

  /** Toggling twice restores the set. When the id was absent the persisted
      list comes back unchanged; when it was present it comes back at the
      end of the list. */
  lemma ToggleTwice(s: seq<string>, id: string)
    requires NoDup(s)
    ensures forall x :: x in Toggle(Toggle(s, id), id) <==> x in s
    ensures id !in s ==> Toggle(Toggle(s, id), id) == s
    ensures id in s ==> Toggle(Toggle(s, id), id) == Delete(s, id) + [id]
  {
    if id !in s {
      DeleteLast(s, id);
    }
  }

  /** Deleting an id that was just appended gives the list back. */
  lemma {:induction false} DeleteLast(s: seq<string>, id: string)
    requires id !in s
    ensures Delete(s + [id], id) == s
  {
    if s != [] {
      assert (s + [id])[1..] == s[1..] + [id];
      DeleteLast(s[1..], id);
    }
  }
}

=== FILE: login.dfy ===
/** The login page: `handleLogin` stores and publishes the token only for a
    "success" answer and maps every failure to an error text; the schema's
    password rule is the registration one; the forgot-password link needs an
    email first. */
module Login {
  import opened Common
  import opened Session
  import FormRules

  /** The page's state: the stored token and session, `apiError`, `isLoading`. */
  datatype View = View(auth: Auth, apiError: string, isLoading: bool)

  /** The view, where the browser goes, and the greeting toast if one was
      raised. */
  datatype Result = Result(view: View, nav: Nav, toast: Option<Toast>)

  const InvalidCredentials := "Invalid credentials"
  const NoResponseText := "No response from server. Please try again later."
  const UnexpectedText := "An unexpected error occurred. Please try again."

  /** The error text for an error response: the server's message when it is
      a non-empty string, otherwise "Invalid credentials". */
  function ResponseErrorText(message: Option<string>): (t: string)
    ensures Truthy(message) ==> t == message.value
    ensures !Truthy(message) ==> t == InvalidCredentials
  {
    OrElse(message, InvalidCredentials)
  }

  /** The greeting `Welcome ${data.user.name}`: a missing name is
      interpolated as "undefined". */
  function Greeting(u: User): (t: string)
    ensures u.name.Some? ==> t == "Welcome " + u.name.value
    ensures u.name.None? ==> t == "Welcome undefined"
  {
    "Welcome " + match u.name case Some(n) => n case None => "undefined"
  }

  /** `handleLogin(formValues)`. A "success" answer writes the token and
      publishes it, then greets the user by `data.user.name` and goes home.
      Without a `user` object that read throws, after the token is already
      stored, and the failure lands in the last catch branch; a user without
      a name is greeted as "undefined" and still goes home. */
  function HandleLogin(v: View, reply: AuthReply): (r: Result)
    ensures !r.view.isLoading
    ensures r.view.auth != v.auth <==> reply.Answered? && reply.message == Some("success") && SignIn(v.auth, reply.token) != v.auth
    ensures reply.Answered? && reply.message == Some("success") ==> r.view.auth == SignIn(v.auth, reply.token)
    ensures reply.Answered? && reply.message == Some("success") ==>
              && (r.nav == NavigateTo("/") <==> reply.user.Some?)
              && (reply.user.Some? ==> r.toast == Some(ToastSuccess(Greeting(reply.user.value))) && r.view.apiError == v.apiError)
              && (reply.user.None? ==> r.view.apiError == UnexpectedText && r.toast.None?)
    ensures r.nav != Stay ==> reply.Answered? && r.nav == NavigateTo("/") && r.view.auth.session.login == Some(reply.token)
    ensures r.toast.Some? ==> r.nav == NavigateTo("/")
    ensures reply.Answered? && reply.message != Some("success") ==> r == Result(v.(isLoading := false), Stay, None)
    ensures reply.ErrorResponse? ==> r.view.apiError == ResponseErrorText(reply.message) && r.nav == Stay
    ensures reply.NoResponse? ==> r.view.apiError == NoResponseText && r.nav == Stay
    ensures reply.NotSent? ==> r.view.apiError == UnexpectedText && r.nav == Stay
  {
    match reply
    case Answered(message, token, user) =>
      if message == Some("success") then
        var signedIn := SignIn(v.auth, token);
        match user
        case Some(u) => Result(View(signedIn, v.apiError, false), NavigateTo("/"), Some(ToastSuccess(Greeting(u))))
        case None => Result(View(signedIn, UnexpectedText, false), Stay, None)
      else Result(v.(isLoading := false), Stay, None)
    case ErrorResponse(message) => Result(v.(apiError := ResponseErrorText(message), isLoading := false), Stay, None)
    case NoResponse(_) => Result(v.(apiError := NoResponseText, isLoading := false), Stay, None)
    case NotSent(_) => Result(v.(apiError := UnexpectedText, isLoading := false), Stay, None)
  }

  /** The login schema's password rule is the registration rule. */
  predicate PasswordValid(s: string) {
    FormRules.PasswordValid(s)
  }

  /** The forgot-password link is followed only when an email was typed:
      `!formik.values.email` holds for the empty string alone. */
  predicate ForgotPasswordBlocked(email: string) {
    email == ""
  }

  /** The login schema. Whether the email has the form of an address is the
      form library's own rule, so it is passed in. */
  predicate FormValid(email: string, emailFormatOk: bool, password: string) {
    FormRules.Required(email) && emailFormatOk && PasswordValid(password)
  }

  /** The submit button is enabled only for a valid, edited form while no
      login is in flight. */
  predicate SubmitEnabled(email: string, emailFormatOk: bool, password: string, dirty: bool, isLoading: bool) {
    FormValid(email, emailFormatOk, password) && dirty && !isLoading
  }

  /** The forgot-password gate blocks exactly the emails the schema's
      `required` rejects. */
  lemma ForgotPasswordGate(email: string)
    ensures ForgotPasswordBlocked(email) <==> !FormRules.Required(email)
  {
  }

  /** An email that blocks the forgot-password link also keeps the submit
      button disabled; an enabled button means an email, a password of at
      least eight characters, and no login in flight. */
  lemma BlockedEmailBlocksSubmit(email: string, emailFormatOk: bool, password: string, dirty: bool, isLoading: bool)
    ensures ForgotPasswordBlocked(email) ==> !SubmitEnabled(email, emailFormatOk, password, dirty, isLoading)
    ensures SubmitEnabled(email, emailFormatOk, password, dirty, isLoading) ==>
              !ForgotPasswordBlocked(email) && |password| >= 8 && dirty && !isLoading
  {
  }

  /** The login password rule is decided by the registration rule's single
      pass over the characters. */
  lemma PasswordRuleShared(s: string)
    ensures PasswordValid(s) <==>
              var r := FormRules.Scan(s); |s| >= 8 && r.lower && r.upper && r.digit && r.special && r.allowed
  {
    FormRules.PasswordByScan(s);
  }

  /** Only a "success" answer touches the stored token or the session. */
  lemma OnlySuccessSignsIn(v: View, reply: AuthReply)
    requires !(reply.Answered? && reply.message == Some("success"))
    ensures HandleLogin(v, reply).view.auth == v.auth
    ensures HandleLogin(v, reply).nav == Stay
  {
  }
}

=== FILE: navbar.dfy ===
/** The navigation bar: which links it shows for the session, when it
    refetches the cart, and the logout handler. The handler calls the cart
    context's `setCartCount`, which the context never exports, so the call
    throws after the token is removed and the login cleared. Both the handler
    as written and the evidently intended one are modelled. */
module Navbar {
  import opened Common
  import opened CartStore
  import opened Session

  /** `isAuthPage`: the login and registration paths, compared exactly. */
  predicate IsAuthPage(pathname: string) {
    pathname == "/Login" || pathname == "/Register"
  }

  /** The comparison is exact: case, a trailing slash or a longer path make
      a page that is not an authentication page. */
  lemma AuthPageIsExact()
    ensures IsAuthPage("/Login") && IsAuthPage("/Register")
    ensures !IsAuthPage("/login") && !IsAuthPage("/Login/") && !IsAuthPage("/Register/step")
  {
  }

  /** The mobile menu button is hidden on the authentication pages. */
  predicate MenuButtonShown(pathname: string) {
    !IsAuthPage(pathname)
  }

  /** Every redirect to sign in lands on an authentication page, where the
      menu button is hidden: the guard's redirect and the intended logout's
      navigation alike. */
  lemma RedirectsLandOnAuthPages(stored: Option<string>, a: Auth, c: Cart)
    ensures Guard(stored).Redirect? ==> IsAuthPage(Guard(stored).path) && !MenuButtonShown(Guard(stored).path)
    ensures IsAuthPage(LogoutIntended(a, c).nav.path) && !MenuButtonShown(LogoutIntended(a, c).nav.path)
  {
  }

  /** The session-dependent part of the bar. */
  datatype Links = Links(cartLink: bool, badge: bool, authLinks: bool)

  /** The cart link needs a non-null login, the count badge sits inside it
      and needs a positive count, and the login/register links show for a
      null login. */
  function ShownLinks(login: Option<string>, count: int): (l: Links)
    ensures l.cartLink <==> login.Some?
    ensures l.badge <==> l.cartLink && count > 0
    ensures l.authLinks <==> !l.cartLink
  {
    Links(login.Some?, login.Some? && count > 0, login.None?)
  }

  /** The effect on `UserLogin`: the cart is fetched when the login is truthy. */
  predicate RefetchesCart(login: Option<string>) {
    Truthy(login)
  }

  /** What a logout leaves behind, and whether the handler threw. */
  datatype Logout = Logout(auth: Auth, cart: Cart, nav: Nav, threw: bool)

  /** `handleLogout` as written: the token is removed and the login cleared,
      then calling the missing `setCartCount` throws, so the count is not
      reset and the navigation to the login page never happens. */
  function LogoutAsWritten(a: Auth, c: Cart): (r: Logout)
    ensures r.auth.stored.None? && r.auth.session.login.None?
    ensures r.auth == Auth(None, a.session.(login := None))
    ensures r.auth.session.userId == a.session.userId
    ensures r.threw && r.nav == Stay && r.cart == c
  {
    var cleared := Auth(None, a.session.(login := None));
    Logout(cleared, c, Stay, true)
  }

  /** A logged-in user with items in the cart keeps the old count and stays
      on the page after logging out. */
  lemma LogoutAsWrittenKeepsCount(a: Auth, c: Cart)
    requires c.count == 3
    ensures LogoutAsWritten(a, c).cart.count == 3
    ensures LogoutAsWritten(a, c).nav != NavigateTo("/Login")
  {
  }

  /** `handleLogout` with the count setter exported: token removed, login
      cleared, count zeroed, then off to the login page. The user id is not
      part of what logout clears. */
  function LogoutIntended(a: Auth, c: Cart): (r: Logout)
    ensures r.auth.stored.None? && r.auth.session.login.None?
    ensures r.auth.session.userId == a.session.userId
    ensures r.cart == c.(count := 0) && r.nav == NavigateTo("/Login") && !r.threw
  {
    var cleared := Auth(None, a.session.(login := None));
    Logout(cleared, c.(count := 0), NavigateTo("/Login"), false)
  }

  /** After the intended logout the bar hides the cart link and badge and
      shows the login/register links, and nothing triggers a refetch. */
  lemma LogoutHidesCart(a: Auth, c: Cart)
    ensures var r := LogoutIntended(a, c);
            ShownLinks(r.auth.session.login, r.cart.count) == Links(false, false, true)
            && !RefetchesCart(r.auth.session.login)
  {
  }
}

=== FILE: product_details.dfy ===
/** The product page: the quantity stepper, the related-products list
    drawn from the product's category, the error texts, and the
    single-flight add-to-cart button. */
module ProductDetails {
  import opened Common
  import opened CartStore
  import AddButton

  /** The stepper starts at 1. */
  const InitialQuantity := 1

  /** The stepper's two buttons. */
  datatype Click = Minus | Plus

  /** One click: minus is `Math.max(1, q - 1)`, plus is `q + 1`. */
  function Step(q: int, click: Click): (r: int)
    ensures click == Plus ==> r == q + 1
    ensures click == Minus ==> r >= 1 && r <= (if q >= 1 then q else 1) && (q > 1 ==> r == q - 1)
  {
    match click
    case Minus => if q - 1 > 1 then q - 1 else 1
    case Plus => q + 1
  }

  /** The quantity after a run of clicks. Starting from any quantity of at
      least 1 it never drops below 1, and it never exceeds the start plus
      the number of clicks. */
  function Quantity(q: int, clicks: seq<Click>): (r: int)
    ensures q >= 1 ==> r >= 1
    ensures r <= (if q >= 1 then q else 1) + |clicks|
    decreases |clicks|
  {
    if clicks == [] then q
    else Quantity(Step(q, clicks[0]), clicks[1..])
  }

  /** Whatever the user clicks, the stepper shows at least 1. */
  lemma QuantityAlwaysPositive(clicks: seq<Click>)
    ensures Quantity(InitialQuantity, clicks) >= 1
  {
  }

  /** The related products: the first eight of the category's products, in
      order, without the one on the page (compared by `id`). */
  function Related(routeId: string, fetched: seq<Product>): (r: seq<Product>)
    ensures |r| <= 8
    ensures forall i | 0 <= i < |r| :: r[i] in fetched && r[i].id != routeId
    ensures |Filter(fetched, (p: Product) => p.id != routeId)| <= 8 ==>
              forall i | 0 <= i < |fetched| && fetched[i].id != routeId :: fetched[i] in r
    ensures r <= Filter(fetched, (p: Product) => p.id != routeId)
    ensures var n := |Filter(fetched, (p: Product) => p.id != routeId)|; |r| == if n < 8 then n else 8
  {
    Take(Filter(fetched, (p: Product) => p.id != routeId), 8)
  }

  /** The related list is a prefix of the filtered list: nothing from later
      in the category replaces something earlier. */
  lemma RelatedIsPrefix(routeId: string, fetched: seq<Product>, more: seq<Product>)
    ensures var r := Related(routeId, fetched);
            |r| < 8 ==> r <= Related(routeId, fetched + more)
  {
    var keep := (p: Product) => p.id != routeId;
    FilterAppend(fetched, more, keep);
  }

  /** A fetch as the page sees it: a value, or a failure carrying the
      server's message when there was a response. */
  datatype Fetch<T> = Fetched(value: T) | FetchFailed(serverMessage: Option<string>)

  /** `relatedProducts` with `relatedProductsError`. */
  datatype RelatedState = RelatedState(related: seq<Product>, error: Option<string>)

  const RelatedErrorText := "Failed to load related products"
  const DetailsErrorText := "Failed to fetch product details"

  /** `getRelatedProducts`: a failure empties the list and sets the error. */
  function LoadRelated(routeId: string, reply: Fetch<seq<Product>>): (s: RelatedState)
    ensures reply.FetchFailed? ==> s == RelatedState([], Some(RelatedErrorText))
    ensures reply.Fetched? ==> s.error.None? && s.related == Related(routeId, reply.value)
  {
    match reply
    case Fetched(ps) => RelatedState(Related(routeId, ps), None)
    case FetchFailed(_) => RelatedState([], Some(RelatedErrorText))
  }

  /** The product-load error: the server's message when it is a non-empty
      string, otherwise the fixed text. */
  function DetailsError(serverMessage: Option<string>): (t: string)
    ensures Truthy(serverMessage) ==> t == serverMessage.value
    ensures !Truthy(serverMessage) ==> t == DetailsErrorText
    ensures t != ""
  {
    OrElse(serverMessage, DetailsErrorText)
  }

  /** The page's product state: the product, `error`, the related list with
      its error, and `loading`; `toasts` are those the last load raised. */
  datatype DetailsState = DetailsState(product: Option<Product>, error: Option<string>, related: RelatedState,
                                       toasts: seq<Toast>, loading: bool)

  /** `getProductDetails(id)`: the error is cleared first; a failed fetch
      sets the error and toasts the same text, keeping the product and the
      related list it had; a fetched product is shown and its category's
      products are loaded, whose own failure is caught inside
      `getRelatedProducts` and only toasted. */
  function LoadDetails(prior: DetailsState, routeId: string, details: Fetch<Product>,
                       related: Fetch<seq<Product>>): (s: DetailsState)
    ensures !s.loading
    ensures details.FetchFailed? ==>
              var t := DetailsError(details.serverMessage);
              s.error == Some(t) && s.toasts == [ToastError(t)]
              && s.product == prior.product && s.related == prior.related
    ensures details.Fetched? ==>
              s.error.None? && s.product == Some(details.value) && s.related == LoadRelated(routeId, related)
              && s.toasts == (if related.FetchFailed? then [ToastError(RelatedErrorText)] else [])
  {
    match details
    case FetchFailed(m) =>
      var t := DetailsError(m);
      prior.(error := Some(t), toasts := [ToastError(t)], loading := false)
    case Fetched(p) =>
      var r := LoadRelated(routeId, related);
      DetailsState(Some(p), None, r, if related.FetchFailed? then [ToastError(RelatedErrorText)] else [], false)
  }

  /** The page shows an error exactly when the product could not be
      fetched, and then the error is never blank and is also toasted; a
      failure of the related list alone never sets it. */
  lemma ErrorShownIffDetailsFailed(prior: DetailsState, routeId: string, details: Fetch<Product>,
                                   related: Fetch<seq<Product>>)
    ensures var s := LoadDetails(prior, routeId, details, related);
            && (s.error.Some? <==> details.FetchFailed?)
            && (s.error.Some? ==> s.error.value != "" && ToastError(s.error.value) in s.toasts)
  {
  }

  const AddedText := "Product added to cart successfully"
  const AddErrorText := "Error adding product to cart"

  /** `handleAddToCart`: passes the stepper's quantity along with the
      product id, but the store takes only the id. */
  function HandleAddToCart(adding: bool, c: Cart, stored: Option<string>, product: Product,
                           quantity: int, reply: Reply): (p: AddButton.Press)
    ensures adding ==> p == AddButton.Press(c, None, true, None)
    ensures !adding ==> !p.busy && p.sent == AddToCart(c, stored, product.id, reply).sent
    ensures !adding ==>
              var a := AddToCart(c, stored, product.id, reply);
              p.cart == a.cart && p.toast.Some?
              && (p.toast.value == ToastSuccess(AddedText) <==> a.outcome.Returned?)
              && (a.outcome.Threw? ==> p.toast.value == ToastError(OrElse(Some(a.outcome.message), AddErrorText)))
    ensures p.sent.Some? ==> p.sent.value == PostCart(stored.value, product.id)
  {
    AddButton.SingleFlight(adding, c, stored, product.id, reply, AddedText, AddErrorText)
  }

  /** The stepper's quantity makes no difference to what is sent or to the
      cart afterwards. */
  lemma QuantityIsIgnored(adding: bool, c: Cart, stored: Option<string>, product: Product,
                          q1: int, q2: int, reply: Reply)
    ensures HandleAddToCart(adding, c, stored, product, q1, reply) == HandleAddToCart(adding, c, stored, product, q2, reply)
  {
  }
}

=== FILE: recent_product.dfy ===
/** The product grid: the liked set loaded from storage and written back
    after every change, the heart toggle keyed by the product's `id`, and the
    single-flight add-to-cart button. */
module RecentProduct {
  import opened Common
  import opened CartStore
  import opened LikedProducts
  import AddButton

  /** The grid's liked set, the storage entry, and the in-flight flag. */
  datatype Grid = Grid(liked: seq<string>, saved: Saved, adding: bool)

  /** Mounting: the set is initialised from storage and the save effect
      writes it straight back. */
  function Mount(saved: Saved): (g: Grid)
    ensures NoDup(g.liked) && g.saved == Persist(g.liked) && !g.adding
    ensures saved.List? ==> forall x :: x in g.liked <==> x in saved.ids
    ensures !saved.List? ==> g.liked == []
  {
    var liked := Load(saved);
    Grid(liked, Persist(liked), false)
  }

  /** The heart button: `toggleLike(product.id)`, then the save effect. */
  function ToggleLike(g: Grid, product: Product): (g': Grid)
    ensures NoDup(g.liked) ==> NoDup(g'.liked)
    ensures g'.saved == Persist(g'.liked) && g'.adding == g.adding
    ensures product.id in g'.liked <==> product.id !in g.liked
    ensures forall x | x != product.id :: x in g'.liked <==> x in g.liked
  {
    var liked := Toggle(g.liked, product.id);
    Grid(liked, Persist(liked), g.adding)
  }

  const AddedText := "Product added successfully to the cart"
  const AddErrorText := "Error adding product to the cart"

  /** `addProductToCart(product.id)`: a no-op while an add is in flight; the
      flag is lowered after every attempt. */
  function AddProductToCart(g: Grid, c: Cart, stored: Option<string>, product: Product, reply: Reply): (r: (Grid, AddButton.Press))
    ensures g.adding ==> r == (g, AddButton.Press(c, None, true, None))
    ensures !g.adding ==> r.0 == g.(adding := false) && r.1.sent == AddToCart(c, stored, product.id, reply).sent
    ensures !g.adding ==>
              var a := AddToCart(c, stored, product.id, reply);
              r.1.cart == a.cart && r.1.toast.Some?
              && (r.1.toast.value == ToastSuccess(AddedText) <==> a.outcome.Returned?)
              && (a.outcome.Threw? ==> r.1.toast.value == ToastError(OrElse(Some(a.outcome.message), AddErrorText)))
  {
    var p := AddButton.SingleFlight(g.adding, c, stored, product.id, reply, AddedText, AddErrorText);
    (g.(adding := p.busy), p)
  }
}

=== FILE: register.dfy ===
/** The registration page: its schema (name, phone, password, confirmation)
    and `handleRegister`, which stores and publishes the token only for a
    "success" answer and otherwise shows an error text chosen by which part
    of the failed request exists. */
module Register {
  import opened Common
  import opened Session
  import FormRules
  import Login

  /** `rePassword`: required and equal to the password. */
  predicate RePasswordValid(password: string, rePassword: string) {
    FormRules.Required(rePassword) && rePassword == password
  }

  /** The schema's fields apart from the email, whose rule is the form
      library's own. */
  predicate FormValid(name: string, phone: string, password: string, rePassword: string) {
    && FormRules.NameValid(name)
    && FormRules.PhoneValid(phone)
    && FormRules.PasswordValid(password)
    && RePasswordValid(password, rePassword)
  }

  /** The confirmation is valid exactly when it repeats a non-empty
      password. */
  lemma RePasswordMirrorsPassword(password: string, rePassword: string)
    ensures RePasswordValid(password, rePassword) <==> rePassword == password && FormRules.Required(password)
  {
  }

  /** A valid form's confirmation meets the password rule itself, and its
      name has the character-level shape: three letters first, then letters
      with single separators between them. */
  lemma ValidFormShapes(name: string, phone: string, password: string, rePassword: string)
    requires FormValid(name, phone, password, rePassword)
    ensures FormRules.PasswordValid(rePassword)
    ensures FormRules.NameShape(name)
  {
    FormRules.NamePatternIffShape(name);
  }

  /** The page's state: stored token and session, `apiError` (which may be
      set to `undefined`), `isLoading`. */
  datatype View = View(auth: Auth, apiError: Option<string>, isLoading: bool)

  /** How the handler's own promise settles: normally, or rejected by an
      exception thrown inside its catch block. */
  datatype Run = Settled(view: View, nav: Nav) | Crashed(view: View)

  /** `handleRegister(formValues)` as written. `isLoading` is set before the
      request; a request that got no response is reported through
      `error.request.data.status`, and a browser request object has no
      `data`, so that read throws inside the catch block, leaving the
      handler rejected and `isLoading` still set. */
  function HandleRegisterAsWritten(v: View, reply: AuthReply): (r: Run)
    ensures r.Crashed? <==> reply == NoResponse(NoData)
    ensures r.Crashed? ==> r.view.isLoading && r.view.apiError == v.apiError && r.view.auth == v.auth
    ensures r.Settled? ==> !r.view.isLoading
  {
    var loading := v.(isLoading := true);
    match reply
    case Answered(message, token, _) =>
      if message == Some("success") then
        Settled(View(SignIn(v.auth, token), Some(""), false), NavigateTo("/"))
      else Settled(loading.(isLoading := false), Stay)
    case ErrorResponse(message) => Settled(loading.(apiError := message, isLoading := false), Stay)
    case NoResponse(data) =>
      (match data
       case NoData => Crashed(loading)
       case Data(status) => Settled(loading.(apiError := status, isLoading := false), Stay))
    case NotSent(reason) => Settled(loading.(apiError := Some(reason), isLoading := false), Stay)
  }

  /** A request that the server never answered leaves the page stuck: the
      handler rejects and the submit button stays disabled. */
  lemma NoResponseLeavesLoading(v: View)
    ensures HandleRegisterAsWritten(v, NoResponse(NoData)) == Crashed(v.(isLoading := true))
  {
  }

  /** `handleRegister` with the unanswered request reported like the login
      page reports it when the request object carries no `data`. Every
      attempt settles, clears `isLoading`, and publishes a token only for a
      "success" answer. */
  function HandleRegister(v: View, reply: AuthReply): (r: Run)
    ensures r.Settled? && !r.view.isLoading
    ensures reply.Answered? && reply.message == Some("success") ==>
              r.view.auth == SignIn(v.auth, reply.token) && r.nav == NavigateTo("/") && r.view.apiError == Some("")
    ensures !(reply.Answered? && reply.message == Some("success")) ==> r.view.auth == v.auth && r.nav == Stay
    ensures reply.ErrorResponse? ==> r.view.apiError == reply.message
    ensures reply.NoResponse? && reply.data.Data? ==> r.view.apiError == reply.data.status
    ensures reply == NoResponse(NoData) ==> r.view.apiError == Some(Login.NoResponseText)
    ensures reply.NotSent? ==> r.view.apiError == Some(reply.reason)
    ensures reply != NoResponse(NoData) ==> r == HandleRegisterAsWritten(v, reply)
  {
    match reply
    case NoResponse(NoData) => Settled(v.(apiError := Some(Login.NoResponseText), isLoading := false), Stay)
    case _ => HandleRegisterAsWritten(v, reply)
  }
}

=== FILE: session.dfy ===
/** The user context and the route guard: the session is the stored token
    published as `UserLogin` plus the `id` claim decoded from it as `UserId`.
    The context reads the stored token once, when it mounts; the guard reads
    it on every guarded render. Decoding a token is foreign code, passed in
    as a function. */
module Session {
  import opened Common

  /** What decoding a token yields: a failure (the decoder throws), or a
      payload whose `id` claim may be missing. */
  datatype Decoded = Undecodable | Payload(id: Option<string>)

  /** `{UserLogin, UserId}`. */
  datatype Session = Session(login: Option<string>, userId: Option<string>)

  /** The stored `userToken` together with the published session. */
  datatype Auth = Auth(stored: Option<string>, session: Session)

  /** Both fields start null. */
  const Initial := Session(None, None)

  /** The outcome of mounting the provider: the session, and whether the
      mount effect threw. */
  datatype Mounted = Mounted(session: Session, threw: bool)

  /** The mount effect: with a stored token (any string, even empty) the
      login becomes that token and the user id the decoded `id` claim; the
      login is published before decoding, so an undecodable token leaves a
      login without a user id and an exception. */
  function Rehydrate(stored: Option<string>, decode: string -> Decoded): (m: Mounted)
    ensures stored.None? ==> m == Mounted(Initial, false)
    ensures stored.Some? ==> m.session.login == stored
    ensures stored.Some? ==>
              match decode(stored.value)
              case Undecodable => m.session.userId.None? && m.threw
              case Payload(id) => m.session.userId == id && !m.threw
  {
    match stored
    case None => Mounted(Initial, false)
    case Some(token) =>
      var published := Initial.(login := Some(token));
      match decode(token)
      case Undecodable => Mounted(published, true)
      case Payload(id) => Mounted(published.(userId := id), false)
  }

  /** What the guard renders. */
  datatype Guarded = Children | Redirect(path: string)

  /** `ProtectedRoute`: only the token's presence is checked. */
  function Guard(stored: Option<string>): (g: Guarded)
    ensures g == Children <==> stored.Some?
    ensures g != Children ==> g == Redirect("/Login")
  {
    if stored.Some? then Children else Redirect("/Login")
  }

  /** Any stored string, including the empty one, opens guarded routes; the
      guard's answer depends on nothing but the stored token. */
  lemma GuardChecksPresenceOnly(t: string)
    ensures Guard(Some(t)) == Children && Guard(Some("")) == Children
    ensures Guard(None) == Redirect("/Login")
  {
  }

  /** How an authentication request settles: an answer from the server, an
      error response, a request that got no response (with the `data` the
      request object may or may not carry), or a failure before sending. */
  datatype AuthReply =
    | Answered(message: Option<string>, token: string, user: Option<User>)
    | ErrorResponse(message: Option<string>)
    | NoResponse(data: RequestData)
    | NotSent(reason: string)

  /** `data.user`, whose `name` may be missing. */
  datatype User = User(name: Option<string>)

  /** `error.request.data`: a browser request object has no `data`. */
  datatype RequestData = NoData | Data(status: Option<string>)

  /** Storing and publishing a token after a "success" answer: the token is
      written under `userToken` and published as the login; the user id is
      not touched, since the context decodes only when it mounts. */
  function SignIn(a: Auth, token: string): (a': Auth)
    ensures a'.stored == Some(token) && a'.session.login == Some(token)
    ensures a'.session.userId == a.session.userId
  {
    Auth(Some(token), a.session.(login := Some(token)))
  }
}

=== FILE: storefront.dfy ===
/** Properties that span components: the guard against the cart store's
    token check, logging in and out against the guard and the store, the
    product grid's liked ids against the wishlist's filter, and the cart
    store's field table against the claim that every reply replaces the
    whole cart. */
module Storefront {
  import opened Common
  import opened CartStore
  import opened Session
  import LikedProducts
  import RecentProduct
  import Wishlist
  import Navbar

  /** With no usable token every cart operation fails before sending
      anything, with the same message. */
  lemma NoTokenFailsFast(op: Op, c: Cart, stored: Option<string>, reply: Reply)
    requires !HasToken(stored)
    ensures var s := Run(op, c, stored, reply);
            s.sent.None? && s.outcome == Threw(NoTokenError) && !s.cart.loading
            && (op.Fetch? ==> s.cart.items == [] && s.cart.count == 0 && s.cart.total == 0)
            && s.cart.cartId == c.cartId && s.cart.owner == c.owner
  {
  }

  /** The guard lets an empty stored token through, while the cart store
      treats that token as missing. */
  lemma EmptyTokenPassesGuardButNotStore(c: Cart, reply: Reply)
    ensures Guard(Some("")) == Children
    ensures GetCartItems(c, Some(""), reply).outcome == Threw(NoTokenError)
  {
  }

  /** After a successful sign-in the guard opens and the store sends its
      requests with the new token, but the user id stays what it was until
      the context mounts again and decodes the token. */
  lemma SignInOpensGuard(a: Auth, token: string, c: Cart, reply: Reply, decode: string -> Decoded)
    requires token != ""
    ensures var a' := SignIn(a, token);
            Guard(a'.stored) == Children
            && GetCartItems(c, a'.stored, reply).sent == Some(GetCart(token))
            && a'.session.userId == a.session.userId
            && Rehydrate(a'.stored, decode).session.login == Some(token)
  {
  }

  /** After the intended logout the guard redirects and every cart
      operation fails fast. */
  lemma LogoutClosesEverything(a: Auth, c: Cart, op: Op, reply: Reply)
    ensures var r := Navbar.LogoutIntended(a, c);
            Guard(r.auth.stored) == Redirect("/Login")
            && Run(op, r.cart, r.auth.stored, reply).sent.None?
  {
  }

  /** The grid likes a product by its `id`; the wishlist shows catalog
      products by their `_id`. A product whose two ids agree shows up once
      liked; a product liked by an `id` that is no product's `_id` does not,
      though its id is stored. */
  lemma LikedOnGridShownOnWishlist(saved: LikedProducts.Saved, product: Product, catalog: seq<Product>)
    requires product in catalog
    ensures var g := RecentProduct.ToggleLike(RecentProduct.Mount(saved), product);
            var w := Wishlist.Mount(g.saved);
            && (product.id !in RecentProduct.Mount(saved).liked && product.id == product.objectId ==>
                  product in Wishlist.LikedDetails(catalog, w.liked))
            && (product.id !in RecentProduct.Mount(saved).liked
                && product.objectId !in RecentProduct.Mount(saved).liked
                && (forall i | 0 <= i < |catalog| :: catalog[i].objectId != product.id) ==>
                  product.id in w.liked && product !in Wishlist.LikedDetails(catalog, w.liked))
  {
    var g := RecentProduct.ToggleLike(RecentProduct.Mount(saved), product);
    LikedProducts.LoadPersist(g.liked);
  }

  /** Only fetching and removing take every mirrored field from the reply;
      adding, updating, paying and clearing each leave some field alone. */
  lemma WholeCartReplacedOnlyByFetchAndRemove(op: Op)
    ensures Written(op) == {Items, Count, Total, CartId, Owner} <==> op.Fetch? || op.Remove?
  {
  }

  /** A one-line cart of two units of p1 at 50 each; updating p1 to 3 with a
      reply totalling 150 leaves the new total and the new line count. */
  lemma UpdateQuantityScenario(token: string, p1: Product, owner: Option<string>)
    requires token != "" && p1.id == "p1"
    ensures var before := Cart([CartLine(p1, 2, 50)], 1, 100, Some("cart"), owner, false);
            var body := Body(Some("success"), None, 1, Some("cart"),
                             CartData([CartLine(p1, 3, 50)], 150, owner), NoSession);
            var s := UpdateCartQuantity(before, Some(token), "p1", 3, Responded(body));
            s.sent == Some(PutLine(token, p1.objectId, 3))
            && s.cart.total == 150 && s.cart.items[0].count == 3 && s.outcome == Returned(body)
  {
  }

  /** Clearing and a successful order both leave no lines and a zero total;
      only clearing drops the cart id. */
  lemma ClearAndPayEmptyTheCart(c: Cart, stored: Option<string>, b: Body, address: Address, payMethod: string)
    requires HasToken(stored) && MessageSuccess(b) && StatusSuccess(b)
    ensures var k := ClearCart(c, stored, Responded(b));
            k.cart.items == [] && k.cart.total == 0 && k.cart.cartId.None?
    ensures var p := Payment(c, stored, address, payMethod, Responded(b));
            p.cart.items == [] && p.cart.total == 0 && p.cart.cartId == c.cartId
  {
  }
}

=== FILE: wishlist.dfy ===
/** The wishlist page: the same liked set, read from storage; the liked
    products are the fetched catalog filtered by each product's `_id`;
    removal deletes one id and writes the set back; the per-product adding
    marker is cleared after every attempt. */
module Wishlist {
  import opened Common
  import opened CartStore
  import opened LikedProducts

  /** The page's liked set, the storage entry, and `isAddingToCart`. */
  datatype Page = Page(liked: seq<string>, saved: Saved, addingId: Option<string>)

  /** What the page renders. */
  datatype Shown = Loading | LoadFailed(text: string) | EmptyWishlist | Cards(products: seq<Product>)

  /** The page's liked set starts as the product grid's does; this page has
      no save effect, so storage is left as it was. */
  function Mount(saved: Saved): (p: Page)
    ensures NoDup(p.liked) && p.saved == saved && p.addingId.None?
    ensures saved.List? ==> forall x :: x in p.liked <==> x in saved.ids
    ensures !saved.List? ==> p.liked == []
  {
    Page(Load(saved), saved, None)
  }

  /** The catalog's products whose `_id` is liked, in catalog order. */
  function LikedDetails(catalog: seq<Product>, liked: seq<string>): (r: seq<Product>)
    ensures forall i | 0 <= i < |r| :: r[i] in catalog && r[i].objectId in liked
    ensures forall i | 0 <= i < |catalog| && catalog[i].objectId in liked :: catalog[i] in r
  {
    Filter(catalog, (p: Product) => p.objectId in liked)
  }

  /** Splitting the catalog splits the liked products the same way, so the
      page never reorders the catalog. */
  lemma LikedDetailsKeepsOrder(a: seq<Product>, b: seq<Product>, liked: seq<string>)
    ensures LikedDetails(a + b, liked) == LikedDetails(a, liked) + LikedDetails(b, liked)
  {
    FilterAppend(a, b, (p: Product) => p.objectId in liked);
  }

  /** `removeFromWishlist(product._id)`: deletes exactly that id, keeps every
      other, and writes the new set to storage. */
  function RemoveFromWishlist(p: Page, id: string): (p': Page)
    ensures forall x :: x in p'.liked <==> x in p.liked && x != id
    ensures id !in p.liked ==> p'.liked == p.liked
    ensures NoDup(p.liked) ==> NoDup(p'.liked)
    ensures p'.saved == Persist(p'.liked) && p'.addingId == p.addingId
  {
    var liked := Delete(p.liked, id);
    Page(liked, Persist(liked), p.addingId)
  }

  /** Removal is idempotent. */
  lemma RemoveTwice(p: Page, id: string)
    ensures RemoveFromWishlist(RemoveFromWishlist(p, id), id) == RemoveFromWishlist(p, id)
  {
  }

  /** What the page shows: the loading view, then the error view, then the
      empty view exactly when no fetched product is liked, then the cards. */
  function Render(isLoading: bool, error: Option<Option<string>>, catalog: seq<Product>, liked: seq<string>): (v: Shown)
    ensures isLoading <==> v == Loading
    ensures !isLoading && error.Some? ==> v == LoadFailed(OrElse(error.value, "Failed to load wishlist"))
    ensures !isLoading && error.None? ==>
              (v == EmptyWishlist <==> forall i | 0 <= i < |catalog| :: catalog[i].objectId !in liked)
    ensures v.Cards? ==> v.products == LikedDetails(catalog, liked) && v.products != []
  {
    if isLoading then Loading
    else if error.Some? then LoadFailed(OrElse(error.value, "Failed to load wishlist"))
    else
      var shown := LikedDetails(catalog, liked);
      if |shown| == 0 then EmptyWishlist
      else
        assert shown[0] in catalog && shown[0].objectId in liked;
        Cards(shown)
  }

  const AddedText := "Product added successfully to the cart"
  const AddErrorText := "Error adding product to the cart"

  /** `handleAddToCart(product._id)`: the marker names the product while the
      request is in flight and is null again after every attempt. */
  function HandleAddToCart(p: Page, c: Cart, stored: Option<string>, id: string, reply: Reply): (r: (Page, Step, Toast))
    ensures r.0 == p.(addingId := None)
    ensures r.1 == AddToCart(c, stored, id, reply)
    ensures r.1.outcome.Returned? <==> r.2 == ToastSuccess(AddedText)
    ensures r.1.outcome.Threw? ==> r.2 == ToastError(AddErrorText)
  {
    var a := AddToCart(c, stored, id, reply);
    var toast :=
      if a.outcome.Returned? && a.outcome.body.status == Some("success")
      then ToastSuccess(AddedText)
      else ToastError(AddErrorText);
    (p.(addingId := None), a, toast)
  }
}
